=== FILE: README.md ===
# genl_ex in Dafny

genl_ex is a small generic-netlink demonstration in two halves:

- a kernel module registers the family `genl_test`, with three multicast groups and one command (`C_MSG`, carrying one string attribute). Every 5000 ms it multicasts "Hello group <name>" to each group, and it logs any `C_MSG` a user sends it;
- a user-space client, driven by `-h`, `-l`, `-m` and `-s`, either joins some of the groups and prints what arrives, or sends one message to the kernel.

This project models the decision logic of both halves and of the header they share. Every netlink primitive whose answer the code checks is an input: what `genl_ctrl_resolve`, `nl_socket_add_membership`, `genlmsg_put`, `nla_put_string`, `nl_send_auto`, `nl_recvmsgs` and the others answer is fixed in advance by an environment value. The model then states what the code decides from those answers.

Files, one module each:

- `wrappers.dfy`: `Option`.
- `protocol.dfy`: the shared constants and tables of `genl_ex.h`. These are the family and group names, the command and attribute enums, the policy table and the interval.
- `cstring.dfy`: the C string functions the code relies on, over character buffers: reading a NUL-terminated string, `strncpy` and `snprintf`.
- `client_options.dfy`: option processing in the client. This covers the `unsigned int` group mask as a `bv32`, the 256-byte message buffer, the getopt loop and the three sanity checks.
- `client_session.dfy`: the rest of the client:
  - socket set-up and the group walk of `prep_nl_sock`;
  - `send_msg_to_kernel`;
  - the two receive callbacks and the receive loop;
  - `main`.
- `kernel.dfy`: the kernel module:
  - `greet_group` and `genl_test_periodic`;
  - the `C_MSG` handler;
  - the ops, group and family tables;
  - module load, timer expiry and unload as a state machine.
- `end_to_end.dfy`: whole runs. A client with `-l 0,2` hears exactly the greetings of groups 0 and 2. `-s -m ping` sends one request that the kernel accepts. `-s` alone and `-l 0 -s` are refused before any socket call.

The central obligation on the client is this: the walk in `prep_nl_sock` runs bit 0 to `sizeof(unsigned int) - 1`, that is to bit 3, and indexes the three-entry name table with the bit number. It stays in bounds only because no option sequence can set a bit above 2. `ProcessOptionsKeepsMaskValid` proves that invariant, `ParseCmdLine` exports it, and `PrepSocket` requires it.

## Model

| member | source | states |
|---|---|---|
| Protocol.CommandOf | genl_ex.h:21-24 | an id names a command exactly when some command has that enum value |
| Protocol.CommandIds | genl_ex.h:21-24 | command 0 is the reserved one, `C_MSG` is 1, and every command's id maps back to it |
| Protocol.GroupOfName | genl_ex.h:33-37 | a name maps to a group index below `GENL_TEST_MCGRP_MAX` whose table entry is that name; any other name is not in the table |
| Protocol.GroupTable | genl_ex.h:26-37 | the name table has `GENL_TEST_MCGRP_MAX` = 3 entries; entry g is group g's name; the three names are pairwise distinct |
| Protocol.GroupOfNameRoundTrip | genl_ex.h:33-37 | looking up group g's own name gives g back |
| Protocol.AttrIds | genl_ex.h:39-46 | attribute 0 is reserved, `ATTR_MSG` is 1, and `GENL_TEST_ATTR_MAX` is 1 |
| Protocol.PolicyOf | genl_ex.h:48-57 | ids 0..`ATTR_MAX` have an entry; only `ATTR_MSG` is a string, with maximum length 256; id 0's entry is the empty one |
| CString.CStr | genl_ex.c:122 | the string a buffer holds is a NUL-free prefix of it, followed by a NUL unless it fills the buffer |
| CString.StrNCpy | genl_ex.c:66 | strncpy fills exactly n slots: the source's string where it reaches, NUL after |
| CString.SnPrintf | kernel/genl_ex.c:22-23 | snprintf leaves a prefix of the text, cut only when the text does not fit beside the terminator |
| ClientOptions.GroupCountAgrees | genl_ex.h:31 | the 32-bit group count equals `GENL_TEST_MCGRP_MAX` |
| ClientOptions.UIntOf | genl_ex.c:31 | a token stored in `unsigned int` keeps its low 32 bits; tokens below 2^32 are unchanged |
| ClientOptions.TokenWraps | genl_ex.c:31-33 | a token 2^32 larger selects the same group, or fails the same way |
| ClientOptions.OrBits | genl_ex.c:39 | or-ing in `1 << grp` sets bit grp and leaves every other bit as it was |
| ClientOptions.AddGroup | genl_ex.c:29-40 | an index above `GENL_TEST_MCGRP_MAX - 1` ends the process with failure; any other sets exactly its own bit |
| ClientOptions.AddGroups | genl_ex.c:56-61 | one `-l` list succeeds iff every token is a valid index; the mask then gains exactly the listed bits |
| ClientOptions.AddGroupIdempotent | genl_ex.c:39 | adding the same group twice gives the same mask as adding it once |
| ClientOptions.AddGroupCommutes | genl_ex.c:39 | the order in which two groups are added does not matter |
| ClientOptions.AddGroupsKeepsMaskValid | genl_ex.c:29-40 | adding a list to a mask of existing groups leaves a mask of existing groups |
| ClientOptions.SetMessage | genl_ex.c:65-68 | `-m s` leaves the prefix of s of length min(len s, 255) as the buffer's string, within the policy; a shorter NUL-free s reads back unchanged |
| ClientOptions.MessageOverwrites | genl_ex.c:65-68 | a later `-m` replaces an earlier one entirely |
| ClientOptions.ApplyOption | genl_ex.c:52-77 | `-h` exits with success and an unknown option with failure; a bad `-l` list fails; `-l` adds exactly its listed groups to the mask, `-m` sets the buffer from its argument, `-s` sets send mode; every option changes only its own field |
| ClientOptions.ProcessOptions | genl_ex.c:46-79 | the loop goes on past every option exactly when each option goes on; when it stops, the status is success exactly when the first stopping option is `-h` |
| ClientOptions.SanityCheck | genl_ex.c:81-96 | send with a mask fails; otherwise neither send nor mask exits with success; otherwise send with an empty message fails; otherwise it goes on with the session unchanged |
| ClientOptions.ParseCmdLine | genl_ex.c:42-97 | going on means exactly one of send and listen, a non-empty message when sending, and a mask of existing groups only; when no option exits, it goes on exactly when `-s` is given iff no group is listed and, with `-s`, the last `-m` leaves a non-empty string; it exits with success exactly when the first stopping option is `-h` or no option stops and neither `-s` nor a group is given |
| ClientOptions.MaskEmptyIffNoneListed | genl_ex.c:81-90 | a mask whose set bits are exactly the listed groups is 0 exactly when no group is listed |
| ClientOptions.ListedGroupsBelow | genl_ex.c:29-40 | every group any `-l` list names is one of the three existing groups |
| ClientOptions.ProcessOptionsKeepsMaskValid | genl_ex.c:46-79 | no option sequence sets a bit outside the three groups |
| ClientOptions.ProcessOptionsAppend | genl_ex.c:46-79 | options are processed one after the other, stopping at the first that exits |
| ClientOptions.EarlyExitSkipsTheRest | genl_ex.c:53-76 | an exiting option ends parsing with its status whatever follows, before the sanity checks |
| ClientOptions.OptionsAccumulate | genl_ex.c:56-72 | without an exit, the mask is the union of all listed groups, `-s` anywhere sets send mode, and the last `-m` decides the message |
| ClientSession.GroupName | genl_ex.c:196-197 | the name looked up for bit g is the table's name of group g |
| ClientSession.PrepSocket | genl_ex.c:161-212 | each setup failure is fatal with its own cause; success iff the socket is ready and every selected group resolves and joins; joins go in ascending order to exactly the selected groups; nothing is joined when the mask is 0 |
| ClientSession.JoinOne | genl_ex.c:196-208 | a group fails on its name lookup or its join, and succeeds only when both do |
| ClientSession.JoinGroups | genl_ex.c:192-211 | the walk joins the selected groups in ascending order and stops at the first failure, having joined exactly the selected groups below it |
| ClientSession.JoinedAreSetBitsBelow | genl_ex.c:192-210 | after bits 0..bit-1, the joined groups are exactly the selected ones below bit |
| ClientSession.JoinedBelowWalkEnd | genl_ex.c:192-197 | no selected bit is at or above the walk's end, so the walk covers every selected group |
| ClientSession.JoinedAllJoinable | genl_ex.c:192-211 | a walk that joined every selected group shows every selected group can be joined |
| ClientSession.SendMsgToKernel | genl_ex.c:98-136 | family-resolve and alloc failures exit; a header failure returns -ENOMEM and an attribute failure its code, neither transmitting; otherwise the result of the send is returned, and a request is transmitted exactly when header, attribute and send all succeed, and it is then the `C_MSG` request built from the resolved family and the buffer |
| ClientSession.Request | genl_ex.c:115-122 | the request is a `C_MSG` with `NLM_F_REQUEST` to the given family, whose MSG string is the buffer up to its first NUL and fits the policy; the header version is 0 |
| ClientSession.MessageFits | genl_ex.c:66-67 | the buffer's last slot is a terminator, so its string always fits the MSG policy |
| ClientSession.SkipSeqCheck | genl_ex.c:138-141 | every sequence number is accepted |
| ClientSession.PrintRxMsg | genl_ex.c:143-159 | the callback always returns `NL_OK`; a missing attribute is reported as an empty message, a present one as its text |
| ClientSession.FirstNonzero | genl_ex.c:233-235 | the first nonzero result, if any: all results before it are 0 |
| ClientSession.ReceiveLoop | genl_ex.c:233-235 | the loop calls `nl_recvmsgs` until the first nonzero result, inclusive; with none it is still receiving |
| ClientSession.RunClient | genl_ex.c:214-239 | a parse exit touches no socket; a setup failure exits with failure; send mode exits with success once the message is allocated, whatever the send returns; listen mode returns 0 after the first nonzero receive result, calling `nl_recvmsgs` up to and including it, and with no nonzero result it has used every result and is still receiving |
| Kernel.Greeting | kernel/genl_ex.c:22-23 | the greeting is 24 characters: "Hello group ", then a name that looks up to the group itself, then a newline |
| Kernel.GreetText | kernel/genl_ex.c:22-23 | the formatted text is the whole "Hello group <name>\n", uncut, NUL-free and within the policy |
| Kernel.Greet | kernel/genl_ex.c:15-51 | a failed alloc, header or attribute drops the greeting with that cause; otherwise one multicast to exactly that group, with C_MSG, version 1 and the group's text |
| Kernel.GreetGroupAsWritten | kernel/genl_ex.c:18-31 | as written, a sent greeting's header flags are GFP_ATOMIC cut to 16 bits |
| Kernel.GreetGroup | kernel/genl_ex.c:15-51 | a sent greeting goes to its own group with its own text and no header flags |
| Kernel.AsWrittenGreetingHasFlags | kernel/genl_ex.c:18-31 | because GFP_ATOMIC includes `__GFP_HIGH`, every greeting sent as written has nonzero header flags |
| Kernel.PeriodicWith | kernel/genl_ex.c:53-64 | the tick with the header flags as a parameter re-arms at now + 5000 and multicasts at most three greetings |
| Kernel.Part | kernel/genl_ex.c:58-61 | one group's share of a tick is at most one multicast, present exactly when the group's calls succeed, to that group with its own greeting, the family id and the given header flags |
| Kernel.SucceedingPart | kernel/genl_ex.c:15-51 | a group whose calls all succeed contributes exactly its own greeting to the tick |
| Kernel.PeriodicParts | kernel/genl_ex.c:58-61 | a tick's multicasts are group 0's part, then group 1's, then group 2's |
| Kernel.PeriodicTick | kernel/genl_ex.c:53-64 | a tick always re-arms at now + 5000; groups are greeted in ascending order, at most once each, exactly those whose calls succeed, each with its own text and the given header flags |
| Kernel.Periodic | kernel/genl_ex.c:53-64 | the tick the module runs re-arms at now + 5000, multicasts at most three greetings, and puts no header flags on them |
| Kernel.PeriodicAsWritten | kernel/genl_ex.c:18-64 | as written, every greeting of a tick carries GFP_ATOMIC cut to 16 bits as its header flags |
| Kernel.FlagsKeepGfpHigh | kernel/genl_ex.c:18-29 | a flag word taken from a GFP mask with `__GFP_HIGH` set is nonzero once cut to 16 bits |
| Kernel.AsWrittenTickHasFlags | kernel/genl_ex.c:18-64 | the tick as written multicasts the same greetings to the same groups in the same order as the corrected one, but with nonzero header flags on each |
| Kernel.PeriodicGroupsIndependent | kernel/genl_ex.c:58-64 | whether group g is greeted depends only on group g's calls, and the re-arm on none |
| Kernel.RxMsg | kernel/genl_ex.c:66-78 | a missing MSG attribute gives -EINVAL, a present one 0 with the sender and text logged; no reply either way |
| Kernel.FindOp | kernel/genl_ex.c:80-87 | the op found is a declared op for that command; none is found iff none is declared |
| Kernel.Dispatch | kernel/genl_ex.c:80-87 | a request reaches a handler only through a declared op for its command, and then gets the handler's result |
| Kernel.FamilyMatchesProtocol | kernel/genl_ex.c:80-105 | the family declares the shared name, version 1, `maxattr` = `ATTR_MAX`, one op for C_MSG under the shared policy, and the three groups at their enum positions under the shared names |
| Kernel.DispatchRoutesMsgOnly | kernel/genl_ex.c:80-87 | only C_MSG reaches a handler, and it reaches `genl_test_rx_msg` |
| Kernel.Init | kernel/genl_ex.c:107-133 | a failed registration returns -EINVAL with no family and no timer; otherwise it returns 0, registered, with the timer armed for now + 5000 |
| Kernel.ExitSteps | kernel/genl_ex.c:136-140 | unloading first deletes the timer with the family still registered, then unregisters, ending unloaded; no state on the way has a pending timer without its family |
| Kernel.ExitOrderMatters | kernel/genl_ex.c:136-140 | unregistering before deleting the timer would pass through a pending timer without a family |
| Kernel.Step | kernel/genl_ex.c:107-140 | loading an unloaded module takes `genl_test_init`'s state and a second load changes nothing; an expiry of a loaded module keeps the family, re-arms at now + 5000 and multicasts that tick's greetings, and any other expiry changes nothing; only such an expiry multicasts; unloading a loaded module leaves it unloaded |
| Kernel.Run | kernel/genl_ex.c:107-140 | a run multicasts only if some event is a timer expiry, and at most three greetings per event |
| Kernel.RunOne | kernel/genl_ex.c:53-64 | a run of one event is exactly that event's step |
| Kernel.RunAppend | kernel/genl_ex.c:53-64 | running two event sequences one after the other is running their concatenation; the multicasts are the first run's followed by the second's, so every expiry's greetings are kept, in order |
| Kernel.FoldAppend | kernel/genl_ex.c:107-140 | for any step function, running a + b is running a, then b from where a ended, with the multicasts in that order |
| Kernel.RunIsFold | kernel/genl_ex.c:107-140 | a run of the module is its step function applied to each event in turn |
| Kernel.RunStaysSettled | kernel/genl_ex.c:107-140 | over any event sequence, the family is registered exactly when the timer is pending |
| Kernel.RunSendsOnlyGreetings | kernel/genl_ex.c:53-64 | every multicast of any run goes to an existing group with that group's greeting |
| Kernel.UnloadedIsSilent | kernel/genl_ex.c:136-140 | an unloaded module multicasts nothing until it is loaded again |
| EndToEnd.ListenZeroTwoOptions | genl_ex.c:56-61 | `-l 0,2` leaves listen mode with exactly bits 0 and 2 set |
| EndToEnd.FullTick | kernel/genl_ex.c:53-64 | when every call succeeds, a tick multicasts the greetings of groups 0, 1 and 2, in that order |
| EndToEnd.Heard | genl_ex.c:143-159 | what a client prints for a run of multicasts: never more reports than multicasts |
| EndToEnd.HeardConcat | genl_ex.c:143-159 | multicasts are printed in the order they arrive: hearing two runs is hearing each in turn |
| EndToEnd.HeardOne | genl_ex.c:143-159 | one multicast is printed, as its text, exactly when the client joined its group |
| EndToEnd.HeardFromJoined | genl_ex.c:143-159 | every printed report is the text of some multicast to a joined group |
| EndToEnd.HeardZeroAndTwo | kernel/genl_ex.c:58-64 | a client in groups 0 and 2 hears, after a fully successful tick, the greetings of groups 0 and 2 in order and not group 1's |
| EndToEnd.ZeroTwoNames | genl_ex.c:192-197 | joining bits 0 and 2 means joining the groups named `genl_mcgrp0` and `genl_mcgrp2` |
| EndToEnd.ListenHearsZeroTwo | genl_ex.c:143-159 | a client that joined bits 0 and 2 prints the greetings of groups 0 and 2 from a full tick, in order |
| EndToEnd.ListenScenario | genl_ex.c:214-239 | `-l 0,2` joins [0, 2], sends nothing, and prints the two greetings |
| EndToEnd.SendPingOptions | genl_ex.c:65-72 | `-s -m ping` leaves send mode with no groups and "ping" in the buffer |
| EndToEnd.SendScenario | genl_ex.c:98-136 | `-s -m ping` joins nothing, transmits one C_MSG request with "ping", exits with success, and the kernel handler returns 0 and logs it |
| EndToEnd.SendFailureIgnored | genl_ex.c:224-226 | a header, attribute or send failure still ends in exit success, with nothing transmitted |
| EndToEnd.SendWithoutMessage | genl_ex.c:92-96 | `-s` with no `-m` exits with failure before touching the socket |
| EndToEnd.ListenAndSend | genl_ex.c:82-86 | `-l 0 -s` exits with failure before touching the socket |

## Left out

- Netlink and kernel primitives are not modelled. These are socket allocation, connect, family and group resolution, membership, `genlmsg_new`/`genlmsg_put`/`nla_put_string`/`nl_send_auto`, `genlmsg_multicast`, `genlmsg_parse` and `nl_recvmsgs`. Each of them except `genlmsg_multicast` is an input to the model, and the attribute byte encoding lives inside those libraries.
- EndToEnd.Heard: `greet_group` ignores what `genlmsg_multicast` returns (kernel/genl_ex.c:44), so the model has no multicast outcome. `Heard` assumes every multicast reaches every member of its group, though netlink multicast delivery is best-effort; `HeardZeroAndTwo` and `ListenScenario` rest on that assumption.
- `nl_socket_disable_seq_check`, `nl_socket_disable_auto_ack`, `nl_cb_alloc`, `nl_cb_set` and `nl_cb_put` are not modelled. They have no failure path in the code: the result of `nl_cb_alloc` is never checked.
- getopt and strtok tokenisation is not modelled. Options arrive as a parsed sequence, and each `-l` list as the numbers strtoul read. Not modelled:
  - non-numeric tokens, which strtoul reads as 0;
  - an empty `-l` list, which hands NULL to `add_group`;
  - strtoul's own saturation at `ULONG_MAX`.
- Usage, `printf`, `fprintf` and `printk` text appears only as outcome tags: `RxReport`, `RxLog` and `ExitStatus`.
- Jiffies, `msecs_to_jiffies`, `mod_timer` and `del_timer` timing are not modelled. Time is an abstract millisecond count. A timer expiry is one `Fire` event, and "armed" means `Pending`.
- The kernel-version branches (`LINUX_VERSION_CODE`), `MODULE_*` metadata and the `__init` annotation are left out.
- The first `genlmsg_new` buffer in `greet_group` (kernel/genl_ex.c:20) is overwritten at :24 and leaked. The model has one allocation outcome per greeting.
- The generic-netlink core's own checks before `doit` runs are not modelled. These include policy validation and the rejection of unknown commands. `Dispatch` only routes.
- `genl_ctrl_resolve` runs twice, in `prep_nl_sock` and in `send_msg_to_kernel`. The model gives each call its own answer: `familyId` and `sendFamilyId`.
- Kernel.Periodic: the tick that `Step` and `Run` use is built on the corrected greeting, with header flags 0, and not on the code's GFP_ATOMIC flags (see Findings). `PeriodicAsWritten` is the tick as written, and `AsWrittenTickHasFlags` proves it differs from `Periodic` only in those flags.
- ClientSession.ReceiveLoop: an environment is a finite list of `nl_recvmsgs` results. A run whose results are all zero ends with `StillReceiving` rather than blocking forever.

In send mode, `main` discards what `send_msg_to_kernel` returns and exits with success (genl_ex.c:224-226). Once `prep_nl_sock` has succeeded, only the two `exit` calls inside `send_msg_to_kernel` end in failure. `RunClient` and `SendFailureIgnored` state this.

## Findings

| source | as written | input that shows it | evidently intended | confidence | as-written member | corrected member |
|---|---|---|---|---|---|---|
| kernel/genl_ex.c:18-31 | `flags` holds `GFP_ATOMIC`, an allocation mask, and is also passed to `genlmsg_put` as the netlink header flags of every greeting | any successful greeting: `GFP_ATOMIC` contains `__GFP_HIGH` (0x20), so the header's 16-bit flag word is nonzero | a multicast greeting with header flags 0 | medium, not executed | Kernel.AsWrittenGreetingHasFlags | Kernel.GreetGroup |

=== FILE: client_options.dfy ===
/**
 * Command-line processing of the user-space client (genl_ex.c): the group
 * mask built from -l lists, the message buffer filled by -m, the send flag
 * set by -s, and the sanity checks that decide between exiting and going on.
 */
module ClientOptions {
  import opened Protocol
  import opened CString

  /** `unsigned int mcgroups`: bit g set means "join multicast group g". */
  type Mask = bv32

  /**
   * `char message[GENL_TEST_ATTR_MSG_MAX]`. It starts zeroed and every -m
   * forces a terminator into the last slot, so that slot always holds one.
   */
  type MessageBuffer = b: seq<char> | |b| == ATTR_MSG_MAX && b[ATTR_MSG_MAX - 1] == NUL
    witness NulBuffer(ATTR_MSG_MAX)

  /** GENL_TEST_MCGRP_MAX as an `unsigned int`. */
  const MCGRP_COUNT: bv32 := 3

  lemma GroupCountAgrees()
    ensures MCGRP_COUNT as int == MCGRP_MAX
  {
  }

  datatype ExitStatus = ExitSuccess | ExitFailure

  /** Either the process carries on with a value, or it has called exit(). */
  datatype Outcome<+T> = Running(value: T) | Exited(status: ExitStatus)

  predicate HasBit(mask: Mask, b: bv32)
    requires b < 32
  {
    mask & (1 << b) != 0
  }

  /** Only bits of existing groups may be set. */
  ghost predicate ValidMask(mask: Mask)
  {
    forall b: bv32 :: b < 32 && HasBit(mask, b) ==> b < MCGRP_COUNT
  }

  /* ---------------- -l: the group mask ---------------- */

  /** `after` has exactly the bits of `before` plus those of `groups`. */
  ghost predicate Extends(before: Mask, after: Mask, groups: set<bv32>)
  {
    forall b: bv32 :: b < 32 ==> (HasBit(after, b) <==> HasBit(before, b) || b in groups)
  }

  lemma OrBit(mask: Mask, grp: bv32, b: bv32)
    requires grp < 32 && b < 32
    ensures HasBit(mask | (1 << grp), b) <==> b == grp || HasBit(mask, b)
  {
  }

  /** Or-ing in bit grp sets that bit and leaves every other bit as it was. */
  lemma OrBits(mask: Mask, grp: bv32)
    requires grp < MCGRP_COUNT
    ensures Extends(mask, mask | (1 << grp), {grp})
  {
    var m := mask | (1 << grp);
    forall b: bv32 | b < 32
      ensures HasBit(m, b) <==> HasBit(mask, b) || b in {grp}
    {
      OrBit(mask, grp, b);
    }
  }

  /** `unsigned int grp = strtoul(...)`: the token keeps its low 32 bits. */
  function UIntOf(token: nat): (grp: nat)
    ensures grp < 0x1_0000_0000
    ensures token < 0x1_0000_0000 ==> grp == token
  {
    token % 0x1_0000_0000
  }

  /** The mask bit position of a group index. */
  function BitOf(grp: nat): (b: bv32)
    requires grp < MCGRP_MAX
    ensures b < MCGRP_COUNT
  {
    if grp == 0 then 0 else if grp == 1 then 1 else 2
  }

  /** Distinct groups have distinct bits. */
  lemma BitOfInjective(g1: nat, g2: nat)
    requires g1 < MCGRP_MAX && g2 < MCGRP_MAX
    ensures BitOf(g1) == BitOf(g2) <==> g1 == g2
  {
  }

  /** add_group: an index past the last group ends the process, any other sets its bit. */
  function AddGroup(mask: Mask, token: nat): (r: Outcome<Mask>)
    ensures r.Running? <==> UIntOf(token) < MCGRP_MAX
    ensures r.Exited? ==> r.status == ExitFailure
    ensures r.Running? ==> Extends(mask, r.value, {BitOf(UIntOf(token))})
  {
    var grp := UIntOf(token);
    if grp > MCGRP_MAX - 1 then Exited(ExitFailure)
    else
      OrBits(mask, BitOf(grp));
      Running(mask | (1 << BitOf(grp)))
  }

  /** The mask bits a list of tokens names; tokens that name no group contribute none. */
  function TokenGroups(tokens: seq<nat>): set<bv32>
  {
    set i | 0 <= i < |tokens| && UIntOf(tokens[i]) < MCGRP_MAX :: BitOf(UIntOf(tokens[i]))
  }

  predicate AllGroupsValid(tokens: seq<nat>)
  {
    forall i :: 0 <= i < |tokens| ==> UIntOf(tokens[i]) < MCGRP_MAX
  }

  /** The tokens of one -l list, added left to right; the first invalid one ends the process. */
  function AddGroups(mask: Mask, tokens: seq<nat>): (r: Outcome<Mask>)
    ensures r.Running? <==> AllGroupsValid(tokens)
    ensures r.Exited? ==> r.status == ExitFailure
    ensures r.Running? ==> Extends(mask, r.value, TokenGroups(tokens))
    decreases |tokens|
  {
    if |tokens| == 0 then Running(mask)
    else
      match AddGroup(mask, tokens[0])
      case Exited(st) => Exited(st)
      case Running(m) =>
        TokenGroupsCons(tokens);
        AddGroups(m, tokens[1..])
  }

  lemma TokenGroupsCons(tokens: seq<nat>)
    requires |tokens| > 0 && UIntOf(tokens[0]) < MCGRP_MAX
    ensures TokenGroups(tokens) == {BitOf(UIntOf(tokens[0]))} + TokenGroups(tokens[1..])
    ensures AllGroupsValid(tokens) <==> AllGroupsValid(tokens[1..])
  {
    forall g | g in TokenGroups(tokens) ensures g in {BitOf(UIntOf(tokens[0]))} + TokenGroups(tokens[1..]) {
      var i :| 0 <= i < |tokens| && UIntOf(tokens[i]) < MCGRP_MAX && BitOf(UIntOf(tokens[i])) == g;
      if i > 0 { assert tokens[1..][i - 1] == tokens[i]; }
    }
    forall g | g in TokenGroups(tokens[1..]) ensures g in TokenGroups(tokens) {
      var i :| 0 <= i < |tokens[1..]| && UIntOf(tokens[1..][i]) < MCGRP_MAX && BitOf(UIntOf(tokens[1..][i])) == g;
      assert tokens[1..][i] == tokens[i + 1];
    }
    assert forall i :: 0 < i < |tokens| ==> tokens[i] == tokens[1..][i - 1];
  }

  /** A token past 32 bits wraps: it names the group its low 32 bits name. */
  lemma TokenWraps(mask: Mask, token: nat)
    ensures AddGroup(mask, token + 0x1_0000_0000) == AddGroup(mask, token)
  {
  }

  /** Adding the same group twice changes nothing. */
  lemma AddGroupIdempotent(mask: Mask, grp: nat)
    requires AddGroup(mask, grp).Running?
    ensures AddGroup(AddGroup(mask, grp).value, grp) == AddGroup(mask, grp)
  {
  }

  /** The order in which two groups are added does not matter. */
  lemma AddGroupCommutes(mask: Mask, g1: nat, g2: nat)
    requires AddGroup(mask, g1).Running? && AddGroup(mask, g2).Running?
    ensures AddGroup(AddGroup(mask, g1).value, g2) == AddGroup(AddGroup(mask, g2).value, g1)
  {
  }

  /** Adding a valid group keeps the mask within the existing groups. */
  lemma AddGroupsKeepsMaskValid(mask: Mask, tokens: seq<nat>)
    requires ValidMask(mask)
    requires AddGroups(mask, tokens).Running?
    ensures ValidMask(AddGroups(mask, tokens).value)
  {
    var m := AddGroups(mask, tokens).value;
    forall b: bv32 | b < 32 && HasBit(m, b) ensures b < MCGRP_COUNT {
      if !HasBit(mask, b) {
        var i :| 0 <= i < |tokens| && UIntOf(tokens[i]) < MCGRP_MAX && BitOf(UIntOf(tokens[i])) == b;
      }
    }
  }

  /* ---------------- Options ---------------- */

  /** One option as getopt("hl:m:s") hands it over, its argument already split and converted. */
  datatype CmdOption =
    | Help                        // -h
    | Listen(tokens: seq<nat>)    // -l g0,g1,... as strtoul read them
    | Message(arg: string)        // -m text
    | SendFlag                    // -s
    | Unknown                     // anything else

  /** The client's static variables. */
  datatype Session = Session(message: MessageBuffer, sendToKernel: bool, mcgroups: Mask)

  /** Static storage starts out zeroed. */
  const InitialSession: Session := Session(NulBuffer(ATTR_MSG_MAX), false, 0)

  /**
   * -m: strncpy into the fixed buffer, then a terminator forced into its
   * last slot. The buffer then holds the argument cut to ATTR_MSG_MAX - 1
   * characters.
   */
  function SetMessage(arg: string): (buf: MessageBuffer)
    ensures CStr(buf) == CStr(arg)[..if |CStr(arg)| < ATTR_MSG_MAX then |CStr(arg)| else ATTR_MSG_MAX - 1]
    ensures FitsMsgPolicy(CStr(buf))
    ensures NulFree(arg) && |arg| < ATTR_MSG_MAX ==> CStr(buf) == arg
  {
    var src := CStr(arg);
    var k := if |src| < ATTR_MSG_MAX then |src| else ATTR_MSG_MAX - 1;
    var buf := StrNCpy(arg, ATTR_MSG_MAX)[ATTR_MSG_MAX - 1 := NUL];
    assert src[..k] == buf[..k];
    CStrUnique(buf, src[..k]);
    if NulFree(arg) then CStrOfNulFree(arg); buf else buf
  }

  /** The options that do not end the process, whatever state they meet. */
  predicate Continues(o: CmdOption)
  {
    match o
    case Help => false
    case Unknown => false
    case Listen(tokens) => AllGroupsValid(tokens)
    case Message(_) => true
    case SendFlag => true
  }

  /** The effect of one option: -h and unknown options exit at once, the others fill the session. */
  function ApplyOption(s: Session, o: CmdOption): (r: Outcome<Session>)
    ensures r.Running? <==> Continues(o)
    ensures o.Help? ==> r == Exited(ExitSuccess)
    ensures r.Exited? && !o.Help? ==> r.status == ExitFailure
    ensures r.Running? ==> (o.Message? || r.value.message == s.message)
    ensures r.Running? ==> (o.SendFlag? || r.value.sendToKernel == s.sendToKernel)
    ensures r.Running? ==> (o.Listen? || r.value.mcgroups == s.mcgroups)
    ensures r.Running? && o.SendFlag? ==> r.value.sendToKernel
    ensures r.Running? && o.Message? ==> r.value.message == SetMessage(o.arg)
    ensures r.Running? && o.Listen? ==> Extends(s.mcgroups, r.value.mcgroups, TokenGroups(o.tokens))
  {
    match o
    case Help => Exited(ExitSuccess)
    case Listen(tokens) =>
      (match AddGroups(s.mcgroups, tokens)
       case Exited(st) => Exited(st)
       case Running(m) => Running(s.(mcgroups := m)))
    case Message(arg) => Running(s.(message := SetMessage(arg)))
    case SendFlag => Running(s.(sendToKernel := true))
    case Unknown => Exited(ExitFailure)
  }

  /** No option of the sequence ends the process. */
  predicate AllContinue(opts: seq<CmdOption>)
  {
    forall i :: 0 <= i < |opts| ==> Continues(opts[i])
  }

  /** The first option that stops the getopt loop is -h. */
  predicate FirstStopIsHelp(opts: seq<CmdOption>)
  {
    exists i :: 0 <= i < |opts| && opts[i].Help? && forall j :: 0 <= j < i ==> Continues(opts[j])
  }

  /** The getopt loop: options in order, stopping at the first that exits. */
  function ProcessOptions(s: Session, opts: seq<CmdOption>): (r: Outcome<Session>)
    ensures r.Running? <==> AllContinue(opts)
    ensures r.Exited? ==> (r.status == ExitSuccess <==> FirstStopIsHelp(opts))
    decreases |opts|
  {
    if |opts| == 0 then Running(s)
    else
      match ApplyOption(s, opts[0])
      case Exited(st) => Exited(st)
      case Running(t) => ProcessOptions(t, opts[1..])
  }

  /** The three sanity checks after the options, in the order the client applies them. */
  function SanityCheck(s: Session): (r: Outcome<Session>)
    ensures r.Running? ==> r.value == s
    ensures r == Exited(ExitFailure) <==> s.sendToKernel && (s.mcgroups != 0 || CStr(s.message) == [])
    ensures r == Exited(ExitSuccess) <==> !s.sendToKernel && s.mcgroups == 0
    ensures r.Running? <==> (s.sendToKernel <==> s.mcgroups == 0) && (s.sendToKernel ==> CStr(s.message) != [])
  {
    CStrEmpty(s.message);
    if s.sendToKernel && s.mcgroups != 0 then Exited(ExitFailure)
    else if !s.sendToKernel && s.mcgroups == 0 then Exited(ExitSuccess)
    else if s.sendToKernel && s.message[0] == NUL then Exited(ExitFailure)
    else Running(s)
  }

  /**
   * parse_cmd_line: on return the client is in exactly one of send and
   * listen mode, has a message when it sends, and listens only to groups
   * that exist.
   */
  function ParseCmdLine(opts: seq<CmdOption>): (r: Outcome<Session>)
    ensures r.Running? ==> ValidMask(r.value.mcgroups)
    ensures r.Running? ==> (r.value.sendToKernel <==> r.value.mcgroups == 0)
    ensures r.Running? && r.value.sendToKernel ==> CStr(r.value.message) != []
    ensures AllContinue(opts) ==>
      (r.Running? <==>
         && ((SendFlag in opts) <==> ListedGroups(opts) == {})
         && (SendFlag in opts ==> CStr(LastMessage(InitialSession.message, opts)) != []))
    ensures r == Exited(ExitSuccess) <==>
      FirstStopIsHelp(opts) || (AllContinue(opts) && SendFlag !in opts && ListedGroups(opts) == {})
  {
    match ProcessOptions(InitialSession, opts)
    case Exited(st) => Exited(st)
    case Running(s) =>
      ProcessOptionsKeepsMaskValid(InitialSession, opts);
      OptionsAccumulate(InitialSession, opts);
      ListedGroupsBelow(opts);
      MaskEmptyIffNoneListed(s.mcgroups, ListedGroups(opts));
      SanityCheck(s)
  }

  /** A mask whose bits are exactly a set of positions is 0 exactly when the set is empty. */
  lemma MaskEmptyIffNoneListed(mask: Mask, groups: set<bv32>)
    requires forall b: bv32 :: b in groups ==> b < 32
    requires forall b: bv32 :: b < 32 ==> (HasBit(mask, b) <==> b in groups)
    ensures mask == 0 <==> groups == {}
  {
    if mask != 0 {
      NonzeroHasBit(mask);
    } else {
      assert forall b: bv32 :: b < 32 ==> !HasBit(mask, b);
      assert forall b: bv32 :: b !in groups;
    }
  }

  /** A nonzero mask has a bit set below 32. */
  lemma NonzeroHasBit(mask: Mask)
    requires mask != 0
    ensures exists b: bv32 :: b < 32 && HasBit(mask, b)
  {
    assert || HasBit(mask, 0) || HasBit(mask, 1) || HasBit(mask, 2) || HasBit(mask, 3)
           || HasBit(mask, 4) || HasBit(mask, 5) || HasBit(mask, 6) || HasBit(mask, 7)
           || HasBit(mask, 8) || HasBit(mask, 9) || HasBit(mask, 10) || HasBit(mask, 11)
           || HasBit(mask, 12) || HasBit(mask, 13) || HasBit(mask, 14) || HasBit(mask, 15)
           || HasBit(mask, 16) || HasBit(mask, 17) || HasBit(mask, 18) || HasBit(mask, 19)
           || HasBit(mask, 20) || HasBit(mask, 21) || HasBit(mask, 22) || HasBit(mask, 23)
           || HasBit(mask, 24) || HasBit(mask, 25) || HasBit(mask, 26) || HasBit(mask, 27)
           || HasBit(mask, 28) || HasBit(mask, 29) || HasBit(mask, 30) || HasBit(mask, 31);
  }

  /* ---------------- Properties of option processing ---------------- */

  /** No option sequence can set a bit outside the existing groups. */
  lemma {:induction false} ProcessOptionsKeepsMaskValid(s: Session, opts: seq<CmdOption>)
    requires ValidMask(s.mcgroups)
    ensures ProcessOptions(s, opts).Running? ==> ValidMask(ProcessOptions(s, opts).value.mcgroups)
    decreases |opts|
  {
    if |opts| > 0 {
      match ApplyOption(s, opts[0])
      case Exited(_) =>
      case Running(t) =>
        if opts[0].Listen? {
          AddGroupsKeepsMaskValid(s.mcgroups, opts[0].tokens);
        }
        ProcessOptionsKeepsMaskValid(t, opts[1..]);
    }
  }

  /** Processing a sequence is processing its two halves one after the other. */
  lemma {:induction false} ProcessOptionsAppend(s: Session, pre: seq<CmdOption>, post: seq<CmdOption>)
    ensures ProcessOptions(s, pre + post) ==
      match ProcessOptions(s, pre)
      case Exited(st) => Exited(st)
      case Running(t) => ProcessOptions(t, post)
    decreases |pre|
  {
    if |pre| > 0 {
      assert (pre + post)[0] == pre[0];
      assert (pre + post)[1..] == pre[1..] + post;
      match ApplyOption(s, pre[0])
      case Exited(_) =>
      case Running(t) => ProcessOptionsAppend(t, pre[1..], post);
    } else {
      assert pre + post == post;
    }
  }

  /**
   * An option that exits ends option processing: whatever follows it is
   * never looked at and the sanity checks never run.
   */
  lemma EarlyExitSkipsTheRest(pre: seq<CmdOption>, o: CmdOption, post: seq<CmdOption>)
    requires ProcessOptions(InitialSession, pre).Running?
    requires !Continues(o)
    ensures ParseCmdLine(pre + [o] + post) == (if o.Help? then Exited(ExitSuccess) else Exited(ExitFailure))
  {
    var t := ProcessOptions(InitialSession, pre).value;
    assert pre + [o] + post == pre + ([o] + post);
    ProcessOptionsAppend(InitialSession, pre, [o] + post);
    assert ([o] + post)[0] == o;
  }

  /** The groups named by all -l options of a sequence. */
  function ListedGroups(opts: seq<CmdOption>): set<bv32>
    decreases |opts|
  {
    if |opts| == 0 then {}
    else (if opts[0].Listen? then TokenGroups(opts[0].tokens) else {}) + ListedGroups(opts[1..])
  }

  /** Every listed group is an existing group's bit. */
  lemma {:induction false} ListedGroupsBelow(opts: seq<CmdOption>)
    ensures forall b :: b in ListedGroups(opts) ==> b < MCGRP_COUNT
    decreases |opts|
  {
    if |opts| > 0 {
      ListedGroupsBelow(opts[1..]);
    }
  }

  /** The buffer the last -m of a sequence leaves, or `init` when there is none. */
  function LastMessage(init: MessageBuffer, opts: seq<CmdOption>): MessageBuffer
    decreases |opts|
  {
    if |opts| == 0 then init
    else LastMessage(if opts[0].Message? then SetMessage(opts[0].arg) else init, opts[1..])
  }

  /**
   * When no option exits, the options accumulate: the mask holds exactly the
   * union of all listed groups (so repetition and order do not matter), -s
   * anywhere sets send mode, and the last -m decides the message.
   */
  lemma {:induction false} OptionsAccumulate(s: Session, opts: seq<CmdOption>)
    requires forall i :: 0 <= i < |opts| ==> Continues(opts[i])
    ensures ProcessOptions(s, opts).Running?
    ensures forall b: bv32 :: b < 32 ==>
      (HasBit(ProcessOptions(s, opts).value.mcgroups, b) <==> HasBit(s.mcgroups, b) || b in ListedGroups(opts))
    ensures ProcessOptions(s, opts).value.sendToKernel <==> s.sendToKernel || SendFlag in opts
    ensures ProcessOptions(s, opts).value.message == LastMessage(s.message, opts)
    decreases |opts|
  {
    if |opts| > 0 {
      var t := ApplyOption(s, opts[0]).value;
      assert forall i :: 0 <= i < |opts[1..]| ==> Continues(opts[1..][i]) by {
        forall i | 0 <= i < |opts[1..]| ensures Continues(opts[1..][i]) {
          assert opts[1..][i] == opts[i + 1];
        }
      }
      assert Continues(opts[0]);
      OptionsAccumulate(t, opts[1..]);
      assert SendFlag in opts <==> opts[0] == SendFlag || SendFlag in opts[1..] by {
        assert opts == [opts[0]] + opts[1..];
      }
    }
  }

  /** A later -m replaces an earlier one entirely. */
  lemma MessageOverwrites(s: Session, a: string, b: string)
    ensures ApplyOption(ApplyOption(s, Message(a)).value, Message(b)) == ApplyOption(s, Message(b))
  {
  }

}

=== FILE: client_session.dfy ===
/**
 * The user-space client after option processing (genl_ex.c): socket setup
 * and group joins, the one-shot send, the receive callbacks and loop, and
 * the choice between them in main. Every libnl call is an abstract result
 * fixed in advance by a NetEnv.
 */
module ClientSession {
  import opened Wrappers
  import opened Protocol
  import opened CString
  import opened ClientOptions

  /** What the netlink library answers the client, call by call. */
  datatype NetEnv = NetEnv(
    sockAllocOk: bool,            // nl_socket_alloc returned a socket
    connectRc: int,               // genl_connect; nonzero is failure
    familyId: int,                // genl_ctrl_resolve in prep_nl_sock; negative is failure
    sendFamilyId: int,            // genl_ctrl_resolve again in send_msg_to_kernel
    resolveGroup: string -> int,  // genl_ctrl_resolve_grp by group name; negative is failure
    addMembership: int -> int,    // nl_socket_add_membership by group id; nonzero is failure
    msgAllocOk: bool,             // nlmsg_alloc returned a message
    putHeaderOk: bool,            // genlmsg_put returned a header
    putStringRc: int,             // nla_put_string; nonzero is failure
    sendRc: int,                  // nl_send_auto; negative is failure
    recvRcs: seq<int>)            // successive nl_recvmsgs results

  /** The group index loop of prep_nl_sock stops at sizeof(unsigned int). */
  const SIZEOF_UINT: bv32 := 4

  const ENOMEM: int := 12

  /* ---------------- prep_nl_sock ---------------- */

  /** genl_test_mcgrp_names[g], indexed by an `unsigned int`. */
  function GroupName(g: bv32): (name: string)
    requires g < MCGRP_COUNT
    ensures GroupOfName(name).Some? && BitOf(GroupOfName(name).value) == g
  {
    GroupTable();
    if g == 0 then McgrpNames[0] else if g == 1 then McgrpNames[1] else McgrpNames[2]
  }

  /** Group g resolves by its name and can be joined. */
  predicate JoinSucceeds(env: NetEnv, g: bv32)
    requires g < MCGRP_COUNT
  {
    var id := env.resolveGroup(GroupName(g));
    id >= 0 && env.addMembership(id) == 0
  }

  /** The socket is allocated and connected and the family resolves. */
  predicate SocketReady(env: NetEnv)
  {
    env.sockAllocOk && env.connectRc == 0 && env.familyId >= 0
  }

  datatype SetupError =
    | SockAllocFailed
    | ConnectFailed
    | FamilyNotFound
    | GroupNotFound(group: bv32)
    | JoinFailed(group: bv32)

  /** Each setup failure ends the process with EXIT_FAILURE. */
  datatype PrepResult = Prepared | SetupFailed(error: SetupError)

  ghost predicate StrictlyAscending(s: seq<bv32>)
  {
    forall i, j :: 0 <= i < j < |s| ==> s[i] < s[j]
  }

  /**
   * prep_nl_sock: allocate, connect, resolve the family, then walk the mask
   * from bit 0 upwards and join every group whose bit is set. The mask only
   * ever holds bits of existing groups, so the name lookup stays inside the
   * name table although the walk goes up to bit 3. `joined` lists the groups
   * joined, in order; the first failure ends the walk.
   */
  method PrepSocket(env: NetEnv, mask: Mask) returns (r: PrepResult, joined: seq<bv32>)
    requires ValidMask(mask)
    ensures r == SetupFailed(SockAllocFailed) <==> !env.sockAllocOk
    ensures r == SetupFailed(ConnectFailed) <==> env.sockAllocOk && env.connectRc != 0
    ensures r == SetupFailed(FamilyNotFound) <==> env.sockAllocOk && env.connectRc == 0 && env.familyId < 0
    ensures r.Prepared? <==> SocketReady(env) && AllJoinable(env, mask)
    ensures JoinedInOrder(env, mask, joined)
    ensures r.Prepared? ==> JoinedBelow(mask, joined, 32)
    ensures r.SetupFailed? && (r.error.GroupNotFound? || r.error.JoinFailed?) ==>
      var g := r.error.group;
      && SocketReady(env)
      && g < MCGRP_COUNT && HasBit(mask, g) && !JoinSucceeds(env, g)
      && (r.error.GroupNotFound? <==> env.resolveGroup(GroupName(g)) < 0)
      && JoinedBelow(mask, joined, g)
    ensures !SocketReady(env) || mask == 0 ==> joined == []
  {
    joined := [];
    if !env.sockAllocOk {
      return SetupFailed(SockAllocFailed), joined;
    }
    if env.connectRc != 0 {
      return SetupFailed(ConnectFailed), joined;
    }
    if env.familyId < 0 {
      return SetupFailed(FamilyNotFound), joined;
    }
    if mask == 0 {
      assert JoinedBelow(mask, joined, 32);
      return Prepared, joined;
    }
    r, joined := JoinGroups(env, mask);
  }

  /** One group of the walk: resolve its name, then join it. */
  function JoinOne(env: NetEnv, g: bv32): (r: Option<SetupError>)
    requires g < MCGRP_COUNT
    ensures r.None? <==> JoinSucceeds(env, g)
    ensures r.Some? ==> r.value == GroupNotFound(g) || r.value == JoinFailed(g)
    ensures r.Some? ==> (r.value.GroupNotFound? <==> env.resolveGroup(GroupName(g)) < 0)
  {
    var grpId := env.resolveGroup(GroupName(g));
    if grpId < 0 then Some(GroupNotFound(g))
    else if env.addMembership(grpId) != 0 then Some(JoinFailed(g))
    else None
  }

  /** Every group selected in the mask can be resolved and joined. */
  ghost predicate AllJoinable(env: NetEnv, mask: Mask)
  {
    forall g: bv32 :: g < MCGRP_COUNT && HasBit(mask, g) ==> JoinSucceeds(env, g)
  }

  /** `joined` lists, in ascending order, groups that are selected and were joined. */
  ghost predicate JoinedInOrder(env: NetEnv, mask: Mask, joined: seq<bv32>)
  {
    && StrictlyAscending(joined)
    && forall i :: 0 <= i < |joined| ==>
         joined[i] < MCGRP_COUNT && HasBit(mask, joined[i]) && JoinSucceeds(env, joined[i])
  }

  ghost predicate AllBelow(joined: seq<bv32>, limit: bv32)
  {
    forall i :: 0 <= i < |joined| ==> joined[i] < limit
  }

  /** The members of `joined` are exactly the selected groups below `limit`. */
  ghost predicate JoinedBelow(mask: Mask, joined: seq<bv32>, limit: bv32)
  {
    forall b: bv32 :: b < 32 ==> (b in joined <==> b < limit && HasBit(mask, b))
  }

  /** The group walk of prep_nl_sock, bits 0 to sizeof(unsigned int) - 1. */
  method JoinGroups(env: NetEnv, mask: Mask) returns (r: PrepResult, joined: seq<bv32>)
    requires ValidMask(mask)
    ensures r.Prepared? || r.error.GroupNotFound? || r.error.JoinFailed?
    ensures r.Prepared? <==> AllJoinable(env, mask)
    ensures JoinedInOrder(env, mask, joined)
    ensures r.Prepared? ==> JoinedBelow(mask, joined, 32)
    ensures r.SetupFailed? ==>
      var g := r.error.group;
      && g < MCGRP_COUNT && HasBit(mask, g) && !JoinSucceeds(env, g)
      && (r.error.GroupNotFound? <==> env.resolveGroup(GroupName(g)) < 0)
      && JoinedBelow(mask, joined, g)
  {
    joined := [];
    var bit: bv32 := 0;
    while bit < SIZEOF_UINT
      invariant bit <= SIZEOF_UINT
      invariant JoinedInOrder(env, mask, joined)
      invariant AllBelow(joined, bit)
      invariant CoversBelow(mask, joined, bit)
      decreases SIZEOF_UINT - bit
    {
      ghost var before := joined;
      if HasBit(mask, bit) {
        assert bit < MCGRP_COUNT;
        var failure := JoinOne(env, bit);
        if failure.Some? {
          JoinedAreSetBitsBelow(mask, joined, bit);
          assert !AllJoinable(env, mask) by {
            assert bit < MCGRP_COUNT && HasBit(mask, bit) && !JoinSucceeds(env, bit);
          }
          return SetupFailed(failure.value), joined;
        }
        AppendKeepsOrder(env, mask, joined, bit);
        joined := joined + [bit];
      }
      CoversStep(mask, before, joined, bit);
      bit := bit + 1;
    }
    JoinedAreSetBitsBelow(mask, joined, bit);
    JoinedBelowWalkEnd(mask, joined);
    JoinedAllJoinable(env, mask, joined);
    return Prepared, joined;
  }

  /** Appending a joined group above every earlier one keeps the list in order. */
  lemma AppendKeepsOrder(env: NetEnv, mask: Mask, joined: seq<bv32>, bit: bv32)
    requires JoinedInOrder(env, mask, joined)
    requires AllBelow(joined, bit)
    requires bit < MCGRP_COUNT && HasBit(mask, bit) && JoinSucceeds(env, bit)
    ensures JoinedInOrder(env, mask, joined + [bit])
    ensures AllBelow(joined + [bit], bit + 1)
  {
  }

  /** Once every selected group is in `joined`, every selected group was joinable. */
  lemma JoinedAllJoinable(env: NetEnv, mask: Mask, joined: seq<bv32>)
    requires ValidMask(mask)
    requires JoinedInOrder(env, mask, joined)
    requires CoversBelow(mask, joined, SIZEOF_UINT)
    ensures AllJoinable(env, mask)
  {
    forall g: bv32 | g < MCGRP_COUNT && HasBit(mask, g)
      ensures JoinSucceeds(env, g)
    {
      assert g in joined;
      var i :| 0 <= i < |joined| && joined[i] == g;
    }
  }

  /** Every set bit below `bit` has been joined. */
  ghost predicate CoversBelow(mask: Mask, joined: seq<bv32>, bit: bv32)
  {
    forall g: bv32 :: g < bit && g < 32 && HasBit(mask, g) ==> g in joined
  }

  lemma CoversStep(mask: Mask, before: seq<bv32>, after: seq<bv32>, bit: bv32)
    requires bit < SIZEOF_UINT && CoversBelow(mask, before, bit)
    requires forall g :: g in before ==> g in after
    requires HasBit(mask, bit) ==> bit in after
    ensures CoversBelow(mask, after, bit + 1)
  {
    forall g: bv32 | g < bit + 1 && g < 32 && HasBit(mask, g)
      ensures g in after
    {
      if g != bit {
        assert g < bit;
      }
    }
  }

  lemma JoinedAreSetBitsBelow(mask: Mask, joined: seq<bv32>, bit: bv32)
    requires bit <= SIZEOF_UINT
    requires AllBelow(joined, bit)
    requires forall i :: 0 <= i < |joined| ==> HasBit(mask, joined[i])
    requires CoversBelow(mask, joined, bit)
    ensures JoinedBelow(mask, joined, bit)
  {
    forall b: bv32 | b < 32
      ensures b in joined <==> b < bit && HasBit(mask, b)
    {
      if b in joined {
        var i :| 0 <= i < |joined| && joined[i] == b;
      }
    }
  }


  /** No selected bit lies at or above the walk's end. */
  lemma JoinedBelowWalkEnd(mask: Mask, joined: seq<bv32>)
    requires ValidMask(mask)
    requires JoinedBelow(mask, joined, SIZEOF_UINT)
    ensures JoinedBelow(mask, joined, 32)
  {
    forall b: bv32 | b < 32
      ensures b in joined <==> HasBit(mask, b)
    {
      if HasBit(mask, b) {
        assert b < MCGRP_COUNT;
      }
    }
  }


  /* ---------------- send_msg_to_kernel ---------------- */

  /** send_msg_to_kernel either exits the process or hands an error code back to main. */
  datatype SendOutcome =
    | SendExited
    | SendReturned(err: int, transmitted: Option<GenlMsg>)

  /** The request the client builds: one C_MSG with the buffer's string as ATTR_MSG. */
  function Request(familyId: int, message: MessageBuffer): (m: GenlMsg)
    ensures CommandOf(m.cmd) == Some(CMsg) && m.nlFlags == NLM_F_REQUEST && m.familyId == familyId
    ensures m.version == 0
    ensures NulFree(m.text) && m.text <= message && (|m.text| < |message| ==> message[|m.text|] == NUL)
    ensures FitsMsgPolicy(m.text)
  {
    MessageFits(message);
    GenlMsg(familyId, NLM_F_REQUEST, C_MSG, 0, CStr(message))
  }

  /**
   * send_msg_to_kernel: resolve the family and allocate a message, exiting
   * on either failure; then put the header, the string attribute and send,
   * returning the first error, or what nl_send_auto returned.
   */
  function SendMsgToKernel(env: NetEnv, message: MessageBuffer): (r: SendOutcome)
    ensures r.SendExited? <==> env.sendFamilyId < 0 || !env.msgAllocOk
    ensures r.SendReturned? && !env.putHeaderOk ==> r.err == -ENOMEM && r.transmitted.None?
    ensures r.SendReturned? && env.putHeaderOk && env.putStringRc != 0 ==>
      r.err == env.putStringRc && r.transmitted.None?
    ensures r.SendReturned? && env.putHeaderOk && env.putStringRc == 0 ==> r.err == env.sendRc
    ensures r.SendReturned? && r.transmitted.Some? ==>
      && env.putHeaderOk && env.putStringRc == 0 && env.sendRc >= 0
      && r.transmitted.value.familyId == env.sendFamilyId
      && r.transmitted.value.cmd == C_MSG
      && r.transmitted.value.text == CStr(message)
      && FitsMsgPolicy(r.transmitted.value.text)
    ensures r.SendReturned? ==>
      (r.transmitted.Some? <==> env.putHeaderOk && env.putStringRc == 0 && env.sendRc >= 0)
    ensures r.SendReturned? && r.transmitted.Some? ==> r.transmitted.value == Request(env.sendFamilyId, message)
  {
    if env.sendFamilyId < 0 then SendExited
    else if !env.msgAllocOk then SendExited
    else if !env.putHeaderOk then SendReturned(-ENOMEM, None)
    else if env.putStringRc != 0 then SendReturned(env.putStringRc, None)
    else
      MessageFits(message);
      SendReturned(env.sendRc, if env.sendRc < 0 then None else Some(Request(env.sendFamilyId, message)))
  }

  /** The buffer's last slot holds a terminator, so its string always satisfies the policy. */
  lemma MessageFits(message: MessageBuffer)
    ensures FitsMsgPolicy(CStr(message))
  {
    var s := CStr(message);
    if |s| >= ATTR_MSG_MAX {
      assert s[ATTR_MSG_MAX - 1] == message[ATTR_MSG_MAX - 1];
    }
  }


  /* ---------------- The receive callbacks and loop ---------------- */

  /** What a libnl callback tells nl_recvmsgs to do next. */
  datatype CbAction = NlOk | NlSkip | NlStop

  /** skip_seq_check: every sequence number is accepted. */
  function SkipSeqCheck(msg: GenlMsg): (r: CbAction)
    ensures r == NlOk
  {
    NlOk
  }

  /** What print_rx_msg writes to stdout. */
  datatype RxReport = EmptyMessage | KernelSays(text: string)

  datatype RxHandled = RxHandled(action: CbAction, report: RxReport)

  /**
   * print_rx_msg, given the MSG attribute as genlmsg_parse left it. A
   * message without the attribute is reported, never treated as an error.
   */
  function PrintRxMsg(attr: Option<string>): (r: RxHandled)
    ensures r.action == NlOk
    ensures r.report.EmptyMessage? <==> attr.None?
    ensures attr.Some? ==> r.report.text == attr.value
  {
    match attr
    case None => RxHandled(NlOk, EmptyMessage)
    case Some(text) => RxHandled(NlOk, KernelSays(text))
  }

  /** The position of the first nonzero result, if any. */
  function FirstNonzero(rcs: seq<int>): (r: Option<nat>)
    ensures r.Some? ==> r.value < |rcs| && rcs[r.value] != 0
    ensures r.Some? ==> forall i :: 0 <= i < r.value ==> rcs[i] == 0
    ensures r.None? <==> forall i :: 0 <= i < |rcs| ==> rcs[i] == 0
    decreases |rcs|
  {
    if |rcs| == 0 then None
    else if rcs[0] != 0 then Some(0)
    else match FirstNonzero(rcs[1..])
      case None => None
      case Some(k) => Some(k + 1)
  }

  /**
   * The do/while around nl_recvmsgs: call it until a call returns nonzero.
   * `rcs` are the results of the calls the environment answers; when they
   * are all zero the loop is still running once they are used up.
   */
  method ReceiveLoop(rcs: seq<int>) returns (calls: nat, last: Option<int>)
    ensures calls <= |rcs|
    ensures forall i :: 0 <= i < calls - 1 ==> rcs[i] == 0
    ensures last.Some? <==> FirstNonzero(rcs).Some?
    ensures last.Some? ==> calls == FirstNonzero(rcs).value + 1 && last.value == rcs[calls - 1] != 0
    ensures last.None? ==> calls == |rcs|
  {
    calls := 0;
    while calls < |rcs|
      invariant calls <= |rcs|
      invariant forall i :: 0 <= i < calls ==> rcs[i] == 0
    {
      var ret := rcs[calls];
      calls := calls + 1;
      if ret != 0 {
        FirstNonzeroAt(rcs, calls - 1);
        return calls, Some(ret);
      }
    }
    return calls, None;
  }

  /** A nonzero result with only zeros before it is the first nonzero one. */
  lemma FirstNonzeroAt(rcs: seq<int>, k: nat)
    requires k < |rcs| && rcs[k] != 0
    requires forall i :: 0 <= i < k ==> rcs[i] == 0
    ensures FirstNonzero(rcs) == Some(k)
  {
  }

  /* ---------------- main ---------------- */

  /** How a run of the client ends, as far as the environment lets it get. */
  datatype ClientEnd =
    | ExitWith(status: ExitStatus)
    | ReturnedFromMain(code: int)
    | StillReceiving

  /** The observable trace of one run. */
  datatype ClientRun = ClientRun(
    end: ClientEnd,
    touchedSocket: bool,   // prep_nl_sock was reached
    joined: seq<bv32>,     // groups joined, in order
    sent: Option<GenlMsg>, // the request transmitted, if any
    recvCalls: nat)        // calls of nl_recvmsgs

  /**
   * main: parse the options, prepare the socket, then either send once and
   * exit with success whatever send_msg_to_kernel returned, or receive until
   * nl_recvmsgs reports something other than 0 and return 0.
   */
  method RunClient(opts: seq<CmdOption>, env: NetEnv) returns (run: ClientRun)
    ensures ParseCmdLine(opts).Exited? ==>
      run == ClientRun(ExitWith(ParseCmdLine(opts).status), false, [], None, 0)
    ensures ParseCmdLine(opts).Running? ==> run.touchedSocket
    ensures run.touchedSocket ==> JoinedInOrder(env, ParseCmdLine(opts).value.mcgroups, run.joined)
    ensures run.touchedSocket && !(SocketReady(env) && AllJoinable(env, ParseCmdLine(opts).value.mcgroups)) ==>
      run.end == ExitWith(ExitFailure) && run.sent.None? && run.recvCalls == 0
    ensures run.touchedSocket && SocketReady(env) && AllJoinable(env, ParseCmdLine(opts).value.mcgroups) ==>
      var s := ParseCmdLine(opts).value;
      && JoinedBelow(s.mcgroups, run.joined, 32)
      && (s.sendToKernel ==>
            && run.end == ExitWith(if env.sendFamilyId < 0 || !env.msgAllocOk then ExitFailure else ExitSuccess)
            && run.joined == [] && run.recvCalls == 0
            && (run.sent.Some? <==>
                 env.sendFamilyId >= 0 && env.msgAllocOk && env.putHeaderOk && env.putStringRc == 0 && env.sendRc >= 0)
            && (run.sent.Some? ==> run.sent.value == Request(env.sendFamilyId, s.message)))
      && (!s.sendToKernel ==>
            && run.sent.None?
            && (run.end == ReturnedFromMain(0) <==> FirstNonzero(env.recvRcs).Some?)
            && (run.end.StillReceiving? <==> FirstNonzero(env.recvRcs).None?)
            && (FirstNonzero(env.recvRcs).Some? ==> run.recvCalls == FirstNonzero(env.recvRcs).value + 1)
            && (FirstNonzero(env.recvRcs).None? ==> run.recvCalls == |env.recvRcs|))
    ensures run.sent.Some? ==> run.sent.value.text != [] && FitsMsgPolicy(run.sent.value.text)
  {
    var parsed := ParseCmdLine(opts);
    if parsed.Exited? {
      return ClientRun(ExitWith(parsed.status), false, [], None, 0);
    }
    var s := parsed.value;
    var prep, joined := PrepSocket(env, s.mcgroups);
    if prep.SetupFailed? {
      return ClientRun(ExitWith(ExitFailure), true, joined, None, 0);
    }
    if s.sendToKernel {
      var out := SendMsgToKernel(env, s.message);
      if out.SendExited? {
        return ClientRun(ExitWith(ExitFailure), true, joined, None, 0);
      }
      return ClientRun(ExitWith(ExitSuccess), true, joined, out.transmitted, 0);
    }
    var calls, last := ReceiveLoop(env.recvRcs);
    var end := if last.Some? then ReturnedFromMain(0) else StillReceiving;
    return ClientRun(end, true, joined, None, calls);
  }

}

=== FILE: cstring.dfy ===
/**
 * The parts of the C string library the code relies on, over character
 * buffers: reading a NUL-terminated string, strncpy and snprintf.
 */
module CString {

  const NUL: char := '\0'

  predicate NulFree(s: string)
  {
    forall i :: 0 <= i < |s| ==> s[i] != NUL
  }

  /**
   * The string a character buffer holds: every character before the first
   * NUL, or the whole buffer when it has none.
   */
  function CStr(buf: seq<char>): (s: string)
    ensures |s| <= |buf| && s == buf[..|s|]
    ensures NulFree(s)
    ensures |s| < |buf| ==> buf[|s|] == NUL
    decreases |buf|
  {
    if |buf| == 0 || buf[0] == NUL then [] else [buf[0]] + CStr(buf[1..])
  }

  /** A buffer of n NUL characters, as static storage starts out. */
  function NulBuffer(n: nat): (buf: seq<char>)
    ensures |buf| == n && forall i :: 0 <= i < n ==> buf[i] == NUL
  {
    if n == 0 then [] else [NUL] + NulBuffer(n - 1)
  }

  /** The three properties of CStr pin its result down. */
  lemma {:induction false} CStrUnique(buf: seq<char>, s: string)
    requires |s| <= |buf| && s == buf[..|s|] && NulFree(s)
    requires |s| < |buf| ==> buf[|s|] == NUL
    ensures CStr(buf) == s
    decreases |s|
  {
    if |s| > 0 {
      assert buf[0] == s[0] != NUL;
      assert s[1..] == buf[1..][..|s| - 1];
      CStrUnique(buf[1..], s[1..]);
      assert s == [s[0]] + s[1..];
    }
  }

  /** A string without NUL reads back as itself. */
  lemma CStrOfNulFree(s: string)
    requires NulFree(s)
    ensures CStr(s) == s
  {
    CStrUnique(s, s);
  }

  /** The buffer holds the empty string exactly when its first character is NUL. */
  lemma CStrEmpty(buf: seq<char>)
    requires |buf| > 0
    ensures CStr(buf) == [] <==> buf[0] == NUL
  {
  }

  /**
   * strncpy into a destination of exactly n characters: the string src holds
   * is copied (at most n characters of it) and the rest is filled with NUL.
   */
  function StrNCpy(src: seq<char>, n: nat): (dst: seq<char>)
    ensures |dst| == n
    ensures forall i :: 0 <= i < n ==> dst[i] == if i < |CStr(src)| then src[i] else NUL
    decreases n
  {
    if n == 0 then []
    else if |src| == 0 || src[0] == NUL then seq(n, _ => NUL)
    else [src[0]] + StrNCpy(src[1..], n - 1)
  }

  /**
   * The string snprintf(buf, size, "%s", text) leaves in buf: text cut to
   * at most size - 1 characters, the last slot being the terminator.
   */
  function SnPrintf(text: string, size: nat): (s: string)
    requires size > 0
    ensures |s| < size && |s| <= |text| && s == text[..|s|]
    ensures |s| == if |text| < size then |text| else size - 1
  {
    if |text| < size then text else text[..size - 1]
  }

}

=== FILE: end_to_end.dfy ===
/**
 * Whole runs of the client against the kernel module: the option lines a
 * user types, what the client joins or sends, and what each side then
 * sees of the other.
 */
module EndToEnd {
  import opened Wrappers
  import opened Protocol
  import opened CString
  import opened ClientOptions
  import opened ClientSession
  import opened Kernel

  /** The names of the groups a client joined; groups rendezvous by name. */
  function JoinedNames(joined: seq<bv32>): set<string>
    requires forall i :: 0 <= i < |joined| ==> joined[i] < MCGRP_COUNT
  {
    set i | 0 <= i < |joined| :: GroupName(joined[i])
  }

  /**
   * What a client that joined the groups named `names` prints for a
   * sequence of multicasts: each multicast to a group it joined passes
   * through print_rx_msg with its MSG attribute.
   */
  function Heard(names: set<string>, sent: seq<Multicast>): (r: seq<RxReport>)
    requires forall i :: 0 <= i < |sent| ==> sent[i].group < MCGRP_MAX
    ensures |r| <= |sent|
    decreases |sent|
  {
    if |sent| == 0 then []
    else
      var here := if TestMcgrps[sent[0].group] in names
        then [PrintRxMsg(Some(sent[0].msg.text)).report] else [];
      here + Heard(names, sent[1..])
  }

  /** Multicasts are heard one after the other: hearing two runs is hearing each in turn. */
  lemma {:induction false} HeardConcat(names: set<string>, a: seq<Multicast>, b: seq<Multicast>)
    requires forall i :: 0 <= i < |a| ==> a[i].group < MCGRP_MAX
    requires forall i :: 0 <= i < |b| ==> b[i].group < MCGRP_MAX
    ensures forall i :: 0 <= i < |a + b| ==> (a + b)[i].group < MCGRP_MAX
    ensures Heard(names, a + b) == Heard(names, a) + Heard(names, b)
    decreases |a|
  {
    assert forall i :: 0 <= i < |a + b| ==> (a + b)[i] == if i < |a| then a[i] else b[i - |a|];
    if |a| > 0 {
      assert (a + b)[1..] == a[1..] + b;
      HeardConcat(names, a[1..], b);
    } else {
      assert a + b == b;
    }
  }

  /** One multicast is printed, as the kernel's text, exactly when its group was joined. */
  lemma HeardOne(names: set<string>, m: Multicast)
    requires m.group < MCGRP_MAX
    ensures Heard(names, [m]) == if TestMcgrps[m.group] in names then [KernelSays(m.msg.text)] else []
  {
    assert [m][1..] == [];
  }

  /** A report is the text of some multicast in `sent` to a group named in `names`. */
  ghost predicate FromJoined(names: set<string>, sent: seq<Multicast>, rep: RxReport)
  {
    exists j :: 0 <= j < |sent| && sent[j].group < MCGRP_MAX && TestMcgrps[sent[j].group] in names
      && rep == KernelSays(sent[j].msg.text)
  }

  /** Every printed report is the text of some multicast to a joined group. */
  lemma {:induction false} HeardFromJoined(names: set<string>, sent: seq<Multicast>)
    requires forall i :: 0 <= i < |sent| ==> sent[i].group < MCGRP_MAX
    ensures forall i :: 0 <= i < |Heard(names, sent)| ==> FromJoined(names, sent, Heard(names, sent)[i])
    decreases |sent|
  {
    if |sent| > 0 {
      var rest := sent[1..];
      HeardFromJoined(names, rest);
      var here := if TestMcgrps[sent[0].group] in names then [KernelSays(sent[0].msg.text)] else [];
      var hr := Heard(names, rest);
      var r := Heard(names, sent);
      assert r == here + hr;
      forall i | 0 <= i < |r|
        ensures FromJoined(names, sent, r[i])
      {
        if i < |here| {
          assert r[i] == KernelSays(sent[0].msg.text);
          assert 0 < |sent| && sent[0].group < MCGRP_MAX && TestMcgrps[sent[0].group] in names;
        } else {
          assert r[i] == hr[i - |here|];
          assert FromJoined(names, rest, hr[i - |here|]);
          var j :| 0 <= j < |rest| && rest[j].group < MCGRP_MAX && TestMcgrps[rest[j].group] in names
            && hr[i - |here|] == KernelSays(rest[j].msg.text);
          assert rest[j] == sent[j + 1];
        }
      }
    } else {
      assert Heard(names, sent) == [];
    }
  }

  /** The only ascending list of group indices holding exactly 0 and 2 is [0, 2]. */
  lemma ZeroAndTwo(joined: seq<bv32>)
    requires StrictlyAscending(joined)
    requires forall i :: 0 <= i < |joined| ==> joined[i] < MCGRP_COUNT
    requires forall b: bv32 :: b < 32 ==> (b in joined <==> b == 0 || b == 2)
    ensures joined == [0, 2]
  {
    assert 0 in joined && 2 in joined;
    assert forall i :: 0 <= i < |joined| ==> joined[i] == 0 || joined[i] == 2 by {
      forall i | 0 <= i < |joined| ensures joined[i] == 0 || joined[i] == 2 {
        assert joined[i] in joined;
      }
    }
    if |joined| > 2 {
      FirstBelowThird(joined);
      assert false;
    }
    var i :| 0 <= i < |joined| && joined[i] == 0;
    var j :| 0 <= j < |joined| && joined[j] == 2;
  }

  lemma FirstBelowThird(s: seq<bv32>)
    requires |s| > 2 && StrictlyAscending(s)
    ensures s[0] < s[1] < s[2]
  {
  }

  /** `-l 0,2` leaves the client listening to groups 0 and 2 and nothing else. */
  lemma ListenZeroTwoOptions()
    ensures ParseCmdLine([Listen([0, 2])]).Running?
    ensures var s := ParseCmdLine([Listen([0, 2])]).value;
      !s.sendToKernel && forall b: bv32 :: b < 32 ==> (HasBit(s.mcgroups, b) <==> b == 0 || b == 2)
  {
    var tokens: seq<nat> := [0, 2];
    assert TokenGroups(tokens) == {0, 2} by {
      assert BitOf(UIntOf(tokens[0])) == 0 && BitOf(UIntOf(tokens[1])) == 2;
    }
  }

  /** Joining groups 0 and 2 means answering to the names of those two groups. */
  lemma ZeroTwoNames()
    ensures JoinedNames([0, 2]) == {MCGRP0_NAME, MCGRP2_NAME}
  {
    var joined: seq<bv32> := [0, 2];
    assert GroupName(joined[0]) == MCGRP0_NAME && GroupName(joined[1]) == MCGRP2_NAME;
  }

  /** A kernel whose helpers all succeed. */
  function AllSucceed(g: nat): GreetEnv
  {
    GreetEnv(true, true, 0)
  }

  /** Group g's greeting as the corrected kernel multicasts it. */
  function GreetingTo(familyId: int, g: nat): Multicast
    requires g < MCGRP_MAX
  {
    Multicast(g, GenlMsg(familyId, 0, C_MSG, FAMILY_VERSION, Greeting(g)))
  }

  /** With every call succeeding, a tick multicasts all three greetings, in group order. */
  lemma FullTick(familyId: int, now: int)
    ensures Periodic(familyId, AllSucceed, now).sent
      == [GreetingTo(familyId, 0), GreetingTo(familyId, 1), GreetingTo(familyId, 2)]
  {
    PeriodicParts(familyId, AllSucceed, now, 0);
    SucceedingPart(familyId, AllSucceed, 0, 0);
    SucceedingPart(familyId, AllSucceed, 1, 0);
    SucceedingPart(familyId, AllSucceed, 2, 0);
  }

  /** Proof step of HeardZeroAndTwo: what groups 0 and 2 hear of the three greetings. */
  lemma HeardThreeGreetings(familyId: int)
    ensures Heard({MCGRP0_NAME, MCGRP2_NAME}, [GreetingTo(familyId, 0), GreetingTo(familyId, 1), GreetingTo(familyId, 2)])
      == [KernelSays(Greeting(0)), KernelSays(Greeting(2))]
  {
    var names := {MCGRP0_NAME, MCGRP2_NAME};
    var m0, m1, m2 := GreetingTo(familyId, 0), GreetingTo(familyId, 1), GreetingTo(familyId, 2);
    GroupTable();
    assert TestMcgrps[0] in names && TestMcgrps[1] !in names && TestMcgrps[2] in names;
    HeardOne(names, m0);
    HeardOne(names, m1);
    HeardOne(names, m2);
    HeardConcat(names, [m0], [m1]);
    HeardConcat(names, [m0] + [m1], [m2]);
    assert [m0] + [m1] + [m2] == [m0, m1, m2];
  }

  /** With every greeting sent, a client in groups 0 and 2 hears exactly those two greetings. */
  lemma HeardZeroAndTwo(familyId: int, now: int)
    ensures var t := Periodic(familyId, AllSucceed, now);
      && (forall i :: 0 <= i < |t.sent| ==> t.sent[i].group < MCGRP_MAX)
      && Heard({MCGRP0_NAME, MCGRP2_NAME}, t.sent)
         == [KernelSays("Hello group genl_mcgrp0\n"), KernelSays("Hello group genl_mcgrp2\n")]
  {
    FullTick(familyId, now);
    HeardThreeGreetings(familyId);
    assert Greeting(0) == "Hello group genl_mcgrp0\n" && Greeting(2) == "Hello group genl_mcgrp2\n";
  }

  /** Proof step of ListenScenario: what a client in groups 0 and 2 prints of one full tick. */
  lemma ListenHearsZeroTwo(familyId: int, now: int)
    ensures var t := Periodic(familyId, AllSucceed, now);
      && (forall i :: 0 <= i < |t.sent| ==> t.sent[i].group < MCGRP_MAX)
      && Heard(JoinedNames([0, 2]), t.sent)
         == [KernelSays("Hello group genl_mcgrp0\n"), KernelSays("Hello group genl_mcgrp2\n")]
  {
    ZeroTwoNames();
    HeardZeroAndTwo(familyId, now);
  }

  /**
   * `-l 0,2` against a kernel whose three greetings all go out: the client
   * joins groups 0 and 2, in that order, and prints the greetings of those
   * two groups and never group 1's.
   */
  method ListenScenario(env: NetEnv, familyId: int, now: int) returns (run: ClientRun, heard: seq<RxReport>)
    requires SocketReady(env) && JoinSucceeds(env, 0) && JoinSucceeds(env, 2)
    ensures run.joined == [0, 2] && run.sent.None?
    ensures heard == [KernelSays("Hello group genl_mcgrp0\n"), KernelSays("Hello group genl_mcgrp2\n")]
  {
    ListenZeroTwoOptions();
    var opts := [Listen([0, 2])];
    run := RunClient(opts, env);
    var mask := ParseCmdLine(opts).value.mcgroups;
    assert AllJoinable(env, mask);
    ZeroAndTwo(run.joined);
    ListenHearsZeroTwo(familyId, now);
    heard := Heard(JoinedNames(run.joined), Periodic(familyId, AllSucceed, now).sent);
  }

  /** `-s -m ping` passes the checks in send mode with "ping" in the buffer. */
  lemma SendPingOptions()
    ensures ParseCmdLine([SendFlag, Message("ping")]).Running?
    ensures var s := ParseCmdLine([SendFlag, Message("ping")]).value;
      s.sendToKernel && s.mcgroups == 0 && CStr(s.message) == "ping"
  {
    assert NulFree("ping");
    var s1 := InitialSession.(sendToKernel := true);
    assert ProcessOptions(InitialSession, [SendFlag, Message("ping")])
        == ProcessOptions(s1, [Message("ping")]);
  }

  /**
   * `-s -m ping` against a kernel that accepts it: the client joins no
   * group, transmits exactly one request carrying "ping", exits with
   * success, and the kernel's handler accepts it and logs the text.
   */
  method SendScenario(env: NetEnv, portid: nat) returns (run: ClientRun, handled: Option<RxResult>)
    requires SocketReady(env)
    requires env.sendFamilyId >= 0 && env.msgAllocOk && env.putHeaderOk && env.putStringRc == 0 && env.sendRc >= 0
    ensures run.end == ExitWith(ExitSuccess) && run.joined == [] && run.recvCalls == 0
    ensures run.sent == Some(GenlMsg(env.sendFamilyId, NLM_F_REQUEST, C_MSG, 0, "ping"))
    ensures handled == Some(RxResult(0, Says(portid, "ping"), None))
  {
    SendPingOptions();
    var opts := [SendFlag, Message("ping")];
    run := RunClient(opts, env);
    assert AllJoinable(env, 0);
    DispatchRoutesMsgOnly(C_MSG, portid, Some("ping"));
    handled := Dispatch(TestFamily, run.sent.value.cmd, portid, Some(run.sent.value.text));
  }

  /**
   * A send that fails after the message was allocated still ends in
   * success: main does not look at what send_msg_to_kernel returned.
   */
  method SendFailureIgnored(env: NetEnv) returns (run: ClientRun)
    requires SocketReady(env) && env.sendFamilyId >= 0 && env.msgAllocOk
    requires !env.putHeaderOk || env.putStringRc != 0 || env.sendRc < 0
    ensures run.end == ExitWith(ExitSuccess) && run.sent.None?
  {
    SendPingOptions();
    run := RunClient([SendFlag, Message("ping")], env);
    assert AllJoinable(env, 0);
  }

  /** `-s` without `-m` fails before the socket is touched. */
  method SendWithoutMessage(env: NetEnv) returns (run: ClientRun)
    ensures run.end == ExitWith(ExitFailure) && !run.touchedSocket && run.sent.None?
  {
    assert CStr(InitialSession.message) == [] by { CStrEmpty(InitialSession.message); }
    run := RunClient([SendFlag], env);
  }

  /** `-l 0 -s` is refused before the socket is touched. */
  method ListenAndSend(env: NetEnv) returns (run: ClientRun)
    ensures run.end == ExitWith(ExitFailure) && !run.touchedSocket && run.joined == []
  {
    var tokens: seq<nat> := [0];
    assert AddGroups(0, tokens) == Running(1) by {
      assert tokens[1..] == [];
    }
    var s1 := InitialSession.(mcgroups := 1);
    assert ProcessOptions(InitialSession, [Listen(tokens), SendFlag]) == ProcessOptions(s1, [SendFlag]);
    run := RunClient([Listen(tokens), SendFlag], env);
  }

}

=== FILE: kernel.dfy ===
/**
 * The kernel module (kernel/genl_ex.c): the greeting it multicasts to each
 * group, the periodic timer that greets all three groups, the handler of
 * the client's C_MSG request, the family's tables, and module load and
 * unload. Allocation, header and attribute results of the kernel's netlink
 * helpers are inputs; time is an abstract millisecond count.
 */
module Kernel {
  import opened Wrappers
  import opened Protocol
  import opened CString

  const EINVAL: int := 22

  /** `.version` of genl_test_family; genlmsg_put copies it into every header. */
  const FAMILY_VERSION: nat := 1

  /** nlmsg_flags is a 16-bit header field. */
  const NLMSG_FLAGS_RANGE: nat := 0x1_0000

  /** The __GFP_HIGH bit, part of GFP_ATOMIC in every kernel that builds this module. */
  const GFP_HIGH: nat := 0x20

  /* ---------------- greet_group ---------------- */

  /** The text snprintf formats for a group, before the buffer bound is applied. */
  function Greeting(group: nat): (s: string)
    requires group < MCGRP_MAX
    ensures |s| == 24 && s[..12] == "Hello group " && s[|s| - 1] == '\n'
    ensures GroupOfName(s[12..|s| - 1]) == Some(group)
  {
    "Hello group " + McgrpNames[group] + "\n"
  }

  /**
   * snprintf(msg, GENL_TEST_ATTR_MSG_MAX, "Hello group %s\n", name). The
   * names are short, so the bound never cuts the greeting.
   */
  function GreetText(group: nat): (text: string)
    requires group < MCGRP_MAX
    ensures text == Greeting(group)
    ensures FitsMsgPolicy(text)
    ensures NulFree(text)
  {
    assert |Greeting(group)| == 24;
    SnPrintf(Greeting(group), ATTR_MSG_MAX)
  }

  /** What the kernel's helpers answer one greet_group call. */
  datatype GreetEnv = GreetEnv(
    allocOk: bool,      // genlmsg_new returned a buffer
    putHeaderOk: bool,  // genlmsg_put returned a header
    putStringRc: int)   // nla_put_string; nonzero is failure

  predicate GreetSucceeds(env: GreetEnv)
  {
    env.allocOk && env.putHeaderOk && env.putStringRc == 0
  }

  /** One genlmsg_multicast: a message handed to the members of one group. */
  datatype Multicast = Multicast(group: nat, msg: GenlMsg)

  /** Why a greeting was dropped; each is only logged. */
  datatype GreetFailure = OutOfMemory | HeaderFailed | AttrFailed(rc: int)

  datatype Greeted = Sent(mc: Multicast) | Dropped(why: GreetFailure)

  /**
   * greet_group with the netlink header flags it passes to genlmsg_put as
   * a parameter: each failure drops the message, success multicasts it to
   * `group` alone.
   */
  function Greet(familyId: int, group: nat, env: GreetEnv, hdrFlags: nat): (r: Greeted)
    requires group < MCGRP_MAX
    ensures r.Sent? <==> GreetSucceeds(env)
    ensures !env.allocOk ==> r == Dropped(OutOfMemory)
    ensures env.allocOk && !env.putHeaderOk ==> r == Dropped(HeaderFailed)
    ensures env.allocOk && env.putHeaderOk && env.putStringRc != 0 ==> r == Dropped(AttrFailed(env.putStringRc))
    ensures r.Sent? ==>
      && r.mc.group == group
      && r.mc.msg.familyId == familyId
      && r.mc.msg.cmd == C_MSG
      && r.mc.msg.version == FAMILY_VERSION
      && r.mc.msg.nlFlags == hdrFlags
      && r.mc.msg.text == Greeting(group)
      && FitsMsgPolicy(r.mc.msg.text)
  {
    var text := GreetText(group);
    if !env.allocOk then Dropped(OutOfMemory)
    else if !env.putHeaderOk then Dropped(HeaderFailed)
    else if env.putStringRc != 0 then Dropped(AttrFailed(env.putStringRc))
    else Sent(Multicast(group, GenlMsg(familyId, hdrFlags, C_MSG, FAMILY_VERSION, text)))
  }

  /**
   * greet_group as the code reads: `flags` holds GFP_ATOMIC, an allocation
   * mask, and the same variable is passed to genlmsg_put, whose parameter
   * is the netlink header's 16-bit flag word.
   */
  function GreetGroupAsWritten(familyId: int, group: nat, env: GreetEnv, gfpAtomic: nat): (r: Greeted)
    requires group < MCGRP_MAX
    ensures r.Sent? ==> r.mc.msg.nlFlags == gfpAtomic % NLMSG_FLAGS_RANGE
    ensures r.Sent? <==> GreetSucceeds(env)
  {
    Greet(familyId, group, env, gfpAtomic % NLMSG_FLAGS_RANGE)
  }

  /** greet_group with no header flags on the multicast, as a kernel broadcast carries. */
  function GreetGroup(familyId: int, group: nat, env: GreetEnv): (r: Greeted)
    requires group < MCGRP_MAX
    ensures r.Sent? <==> GreetSucceeds(env)
    ensures r.Sent? ==> r.mc.group == group && r.mc.msg.nlFlags == 0 && r.mc.msg.text == Greeting(group)
  {
    Greet(familyId, group, env, 0)
  }

  /**
   * Because GFP_ATOMIC includes __GFP_HIGH, every greeting sent as written
   * carries a nonzero netlink flag word, where the corrected one carries none.
   */
  lemma AsWrittenGreetingHasFlags(familyId: int, group: nat, env: GreetEnv, gfpAtomic: nat)
    requires group < MCGRP_MAX && GreetSucceeds(env)
    requires (gfpAtomic / GFP_HIGH) % 2 == 1
    ensures GreetGroupAsWritten(familyId, group, env, gfpAtomic).mc.msg.nlFlags != 0
    ensures GreetGroup(familyId, group, env).mc.msg.nlFlags == 0
  {
    FlagsKeepGfpHigh(gfpAtomic);
  }

  /* ---------------- genl_test_periodic ---------------- */

  /** The multicasts of one timer expiry and the time the timer is re-armed for. */
  datatype Tick = Tick(sent: seq<Multicast>, rearmAt: int)

  /** The multicast of a greeting, or nothing when it was dropped. */
  function SentOf(g: Greeted): (r: seq<Multicast>)
    ensures |r| <= 1 && (r != [] <==> g.Sent?) && (g.Sent? ==> r == [g.mc])
  {
    if g.Sent? then [g.mc] else []
  }

  /**
   * genl_test_periodic with the header flags its greetings carry as a
   * parameter: greet groups 0, 1 and 2 in that order, then re-arm the timer
   * HELLO_INTERVAL after now. `envOf(g)` answers the calls for group g.
   */
  function PeriodicWith(familyId: int, envOf: nat -> GreetEnv, now: int, hdrFlags: nat): (t: Tick)
    ensures t.rearmAt == now + HELLO_INTERVAL && |t.sent| <= MCGRP_MAX
  {
    var sent := Part(familyId, envOf, MCGRP0, hdrFlags)
              + Part(familyId, envOf, MCGRP1, hdrFlags)
              + Part(familyId, envOf, MCGRP2, hdrFlags);
    Tick(sent, now + HELLO_INTERVAL)
  }

  /** genl_test_periodic built on the corrected greet_group (GreetGroup): no header flags. */
  function Periodic(familyId: int, envOf: nat -> GreetEnv, now: int): (t: Tick)
    ensures t.rearmAt == now + HELLO_INTERVAL && |t.sent| <= MCGRP_MAX
    ensures forall i :: 0 <= i < |t.sent| ==> t.sent[i].msg.nlFlags == 0
  {
    PeriodicTick(familyId, envOf, now, 0);
    PeriodicWith(familyId, envOf, now, 0)
  }

  /** genl_test_periodic as the code reads: every greeting carries GFP_ATOMIC as its header flags. */
  function PeriodicAsWritten(familyId: int, envOf: nat -> GreetEnv, now: int, gfpAtomic: nat): (t: Tick)
    ensures forall i :: 0 <= i < |t.sent| ==> t.sent[i].msg.nlFlags == gfpAtomic % NLMSG_FLAGS_RANGE
  {
    PeriodicTick(familyId, envOf, now, gfpAtomic % NLMSG_FLAGS_RANGE);
    PeriodicWith(familyId, envOf, now, gfpAtomic % NLMSG_FLAGS_RANGE)
  }

  /** The groups a tick multicast to. */
  function SentGroups(t: Tick): set<nat>
  {
    set i | 0 <= i < |t.sent| :: t.sent[i].group
  }

  /** Group g's part of a tick: its greeting, or nothing. */
  function Part(familyId: int, envOf: nat -> GreetEnv, g: nat, hdrFlags: nat): (r: seq<Multicast>)
    requires g < MCGRP_MAX
    ensures |r| <= 1 && (r != [] <==> GreetSucceeds(envOf(g)))
    ensures forall i :: 0 <= i < |r| ==>
      && r[i].group == g && r[i].msg.text == Greeting(g)
      && r[i].msg.familyId == familyId && r[i].msg.nlFlags == hdrFlags && r[i].msg.cmd == C_MSG
  {
    SentOf(Greet(familyId, g, envOf(g), hdrFlags))
  }

  /** When group g's calls succeed, its part is exactly its greeting. */
  lemma SucceedingPart(familyId: int, envOf: nat -> GreetEnv, g: nat, hdrFlags: nat)
    requires g < MCGRP_MAX && GreetSucceeds(envOf(g))
    ensures Part(familyId, envOf, g, hdrFlags)
      == [Multicast(g, GenlMsg(familyId, hdrFlags, C_MSG, FAMILY_VERSION, Greeting(g)))]
  {
  }

  /** The multicasts of a tick are the three groups' parts, in group order. */
  lemma PeriodicParts(familyId: int, envOf: nat -> GreetEnv, now: int, hdrFlags: nat)
    ensures PeriodicWith(familyId, envOf, now, hdrFlags).sent
      == Part(familyId, envOf, 0, hdrFlags) + Part(familyId, envOf, 1, hdrFlags) + Part(familyId, envOf, 2, hdrFlags)
  {
  }

  /** A multicast is group g's greeting as a tick with these calls and flags sends it. */
  ghost predicate TickGreeting(m: Multicast, familyId: int, envOf: nat -> GreetEnv, hdrFlags: nat)
  {
    && m.group < MCGRP_MAX
    && GreetSucceeds(envOf(m.group))
    && m.msg.text == Greeting(m.group)
    && m.msg.familyId == familyId
    && m.msg.nlFlags == hdrFlags
  }

  ghost predicate TickGreetings(ms: seq<Multicast>, familyId: int, envOf: nat -> GreetEnv, hdrFlags: nat)
  {
    forall i :: 0 <= i < |ms| ==> TickGreeting(ms[i], familyId, envOf, hdrFlags)
  }

  /** At most one multicast, and it goes to group g. */
  ghost predicate OnlyGroup(ms: seq<Multicast>, g: nat)
  {
    |ms| <= 1 && forall i :: 0 <= i < |ms| ==> ms[i].group == g
  }

  lemma TickGreetingsConcat(a: seq<Multicast>, b: seq<Multicast>, familyId: int, envOf: nat -> GreetEnv, hdrFlags: nat)
    requires TickGreetings(a, familyId, envOf, hdrFlags) && TickGreetings(b, familyId, envOf, hdrFlags)
    ensures TickGreetings(a + b, familyId, envOf, hdrFlags)
  {
    assert forall i :: |a| <= i < |a + b| ==> (a + b)[i] == b[i - |a|];
  }

  /** Parts for groups 0, 1 and 2, laid end to end, are in ascending group order. */
  lemma OrderedParts(a: seq<Multicast>, b: seq<Multicast>, c: seq<Multicast>)
    requires OnlyGroup(a, 0) && OnlyGroup(b, 1) && OnlyGroup(c, 2)
    ensures |a + b + c| <= MCGRP_MAX
    ensures forall i, j :: 0 <= i < j < |a + b + c| ==> (a + b + c)[i].group < (a + b + c)[j].group
  {
    var sent := a + b + c;
    forall i | 0 <= i < |sent|
      ensures sent[i].group == if i < |a| then 0 else if i < |a| + |b| then 1 else 2
    {
      assert sent[i] == if i < |a| then a[i] else if i < |a| + |b| then b[i - |a|] else c[i - |a| - |b|];
    }
  }

  /** Proof step of PeriodicTick: ordering and contents, from the three parts. */
  lemma PeriodicOrderStep(familyId: int, envOf: nat -> GreetEnv, now: int, hdrFlags: nat)
    ensures var t := PeriodicWith(familyId, envOf, now, hdrFlags);
      && |t.sent| <= MCGRP_MAX
      && (forall i, j :: 0 <= i < j < |t.sent| ==> t.sent[i].group < t.sent[j].group)
      && TickGreetings(t.sent, familyId, envOf, hdrFlags)
  {
    PeriodicParts(familyId, envOf, now, hdrFlags);
    var a, b, c := Part(familyId, envOf, 0, hdrFlags), Part(familyId, envOf, 1, hdrFlags), Part(familyId, envOf, 2, hdrFlags);
    OrderedParts(a, b, c);
    TickGreetingsConcat(a, b, familyId, envOf, hdrFlags);
    TickGreetingsConcat(a + b, c, familyId, envOf, hdrFlags);
  }

  /** Proof step of PeriodicTick: every group whose calls succeed is greeted. */
  lemma PeriodicCoverageStep(familyId: int, envOf: nat -> GreetEnv, now: int, hdrFlags: nat)
    ensures var t := PeriodicWith(familyId, envOf, now, hdrFlags);
      forall g: nat :: g < MCGRP_MAX ==> (g in SentGroups(t) <==> GreetSucceeds(envOf(g)))
  {
    PeriodicParts(familyId, envOf, now, hdrFlags);
    PeriodicOrderStep(familyId, envOf, now, hdrFlags);
    var a, b, c := Part(familyId, envOf, 0, hdrFlags), Part(familyId, envOf, 1, hdrFlags), Part(familyId, envOf, 2, hdrFlags);
    var t := PeriodicWith(familyId, envOf, now, hdrFlags);
    forall g: nat | g < MCGRP_MAX && GreetSucceeds(envOf(g))
      ensures g in SentGroups(t)
    {
      var k := if g == 0 then 0 else if g == 1 then |a| else |a| + |b|;
      assert t.sent[k].group == g;
    }
  }

  /**
   * Each tick re-arms the timer, sends each group at most one greeting, in
   * ascending group order, greets exactly the groups whose calls succeed,
   * and carries each group's own text and the header flags given.
   */
  lemma PeriodicTick(familyId: int, envOf: nat -> GreetEnv, now: int, hdrFlags: nat)
    ensures var t := PeriodicWith(familyId, envOf, now, hdrFlags);
      && t.rearmAt == now + HELLO_INTERVAL
      && |t.sent| <= MCGRP_MAX
      && (forall i, j :: 0 <= i < j < |t.sent| ==> t.sent[i].group < t.sent[j].group)
      && (forall i :: 0 <= i < |t.sent| ==>
            && t.sent[i].group < MCGRP_MAX
            && GreetSucceeds(envOf(t.sent[i].group))
            && t.sent[i].msg.text == Greeting(t.sent[i].group)
            && t.sent[i].msg.familyId == familyId
            && t.sent[i].msg.nlFlags == hdrFlags)
      && (forall g: nat :: g < MCGRP_MAX ==> (g in SentGroups(t) <==> GreetSucceeds(envOf(g))))
  {
    PeriodicOrderStep(familyId, envOf, now, hdrFlags);
    PeriodicCoverageStep(familyId, envOf, now, hdrFlags);
  }

  /** The same multicasts with the header flags replaced by `f`. */
  function WithFlags(ms: seq<Multicast>, f: nat): (r: seq<Multicast>)
    ensures |r| == |ms|
    ensures forall i :: 0 <= i < |r| ==> r[i] == ms[i].(msg := ms[i].msg.(nlFlags := f))
  {
    seq(|ms|, i requires 0 <= i < |ms| => ms[i].(msg := ms[i].msg.(nlFlags := f)))
  }

  /** Relabelling the flags of the three parts relabels the whole tick. */
  lemma WithFlagsConcat(a: seq<Multicast>, b: seq<Multicast>, c: seq<Multicast>, f: nat)
    ensures WithFlags(a + b + c, f) == WithFlags(a, f) + WithFlags(b, f) + WithFlags(c, f)
  {
  }

  /** A group's part with header flags f is its flagless part relabelled. */
  lemma PartFlags(familyId: int, envOf: nat -> GreetEnv, g: nat, f: nat)
    requires g < MCGRP_MAX
    ensures Part(familyId, envOf, g, f) == WithFlags(Part(familyId, envOf, g, 0), f)
  {
  }

  /**
   * The tick as written and the corrected one multicast the same greetings
   * to the same groups in the same order; only the header flags differ, and
   * as written they are never 0.
   */
  lemma AsWrittenTickHasFlags(familyId: int, envOf: nat -> GreetEnv, now: int, gfpAtomic: nat)
    requires (gfpAtomic / GFP_HIGH) % 2 == 1
    ensures var w := PeriodicAsWritten(familyId, envOf, now, gfpAtomic);
      var c := Periodic(familyId, envOf, now);
      && w.rearmAt == c.rearmAt
      && w.sent == WithFlags(c.sent, gfpAtomic % NLMSG_FLAGS_RANGE)
      && forall i :: 0 <= i < |w.sent| ==> w.sent[i].msg.nlFlags != 0
  {
    var f := gfpAtomic % NLMSG_FLAGS_RANGE;
    FlagsKeepGfpHigh(gfpAtomic);
    PeriodicParts(familyId, envOf, now, f);
    PeriodicParts(familyId, envOf, now, 0);
    PartFlags(familyId, envOf, 0, f);
    PartFlags(familyId, envOf, 1, f);
    PartFlags(familyId, envOf, 2, f);
    WithFlagsConcat(Part(familyId, envOf, 0, 0), Part(familyId, envOf, 1, 0), Part(familyId, envOf, 2, 0), f);
  }

  /** GFP_ATOMIC cut to the 16-bit flag word keeps its __GFP_HIGH bit, so it is not 0. */
  lemma FlagsKeepGfpHigh(gfpAtomic: nat)
    requires (gfpAtomic / GFP_HIGH) % 2 == 1
    ensures gfpAtomic % NLMSG_FLAGS_RANGE != 0
  {
    var f := gfpAtomic % NLMSG_FLAGS_RANGE;
    assert gfpAtomic == (gfpAtomic / NLMSG_FLAGS_RANGE) * NLMSG_FLAGS_RANGE + f;
    assert (f / GFP_HIGH) % 2 == 1 by {
      assert gfpAtomic / GFP_HIGH == (gfpAtomic / NLMSG_FLAGS_RANGE) * 2048 + f / GFP_HIGH;
    }
  }

  /**
   * A failure greeting one group touches neither the other groups'
   * greetings nor the re-arm: changing what group g's calls answer changes
   * nothing about any other group.
   */
  lemma {:induction false} PeriodicGroupsIndependent(familyId: int, e1: nat -> GreetEnv, e2: nat -> GreetEnv,
                                                     now: int, g: nat)
    requires g < MCGRP_MAX && e1(g) == e2(g)
    ensures (g in SentGroups(Periodic(familyId, e1, now))) <==> (g in SentGroups(Periodic(familyId, e2, now)))
    ensures Periodic(familyId, e1, now).rearmAt == Periodic(familyId, e2, now).rearmAt
  {
    PeriodicTick(familyId, e1, now, 0);
    PeriodicTick(familyId, e2, now, 0);
  }

  /* ---------------- genl_test_rx_msg ---------------- */

  /** What the handler writes to the kernel log. */
  datatype RxLog = EmptyFrom(portid: nat) | Says(portid: nat, text: string)

  /** The handler's return value and log line; it never replies. */
  datatype RxResult = RxResult(rc: int, log: RxLog, reply: Option<GenlMsg>)

  /**
   * genl_test_rx_msg, given the sender's port and the MSG attribute as the
   * generic-netlink core parsed it.
   */
  function RxMsg(portid: nat, attr: Option<string>): (r: RxResult)
    ensures r.rc == 0 <==> attr.Some?
    ensures attr.None? ==> r.rc == -EINVAL && r.log == EmptyFrom(portid)
    ensures attr.Some? ==> r.log == Says(portid, attr.value)
    ensures r.reply.None?
  {
    match attr
    case None => RxResult(-EINVAL, EmptyFrom(portid), None)
    case Some(text) => RxResult(0, Says(portid, text), None)
  }

  /* ---------------- The family's tables ---------------- */

  /** The handlers this module provides. */
  datatype Handler = RxMsgHandler

  datatype GenlOp = GenlOp(cmd: nat, policy: seq<NlaPolicy>, doit: Option<Handler>, dumpit: Option<Handler>)

  datatype GenlFamily = GenlFamily(
    name: string,
    version: nat,
    maxattr: nat,
    netnsok: bool,
    ops: seq<GenlOp>,
    mcgrps: seq<string>)

  /** genl_test_ops: C_MSG handled by genl_test_rx_msg under genl_test_policy. */
  const TestOps: seq<GenlOp> := [GenlOp(C_MSG, Policy, Some(RxMsgHandler), None)]

  /** genl_test_mcgrps, each name at its group's index. */
  const TestMcgrps: seq<string> := [MCGRP0_NAME, MCGRP1_NAME, MCGRP2_NAME]

  const TestFamily: GenlFamily :=
    GenlFamily(FAMILY_NAME, FAMILY_VERSION, ATTR_MAX, false, TestOps, TestMcgrps)

  /** The first operation declared for a command, as genetlink looks it up. */
  function FindOp(ops: seq<GenlOp>, cmd: nat): (r: Option<GenlOp>)
    ensures r.Some? ==> r.value in ops && r.value.cmd == cmd
    ensures r.None? <==> forall i :: 0 <= i < |ops| ==> ops[i].cmd != cmd
    decreases |ops|
  {
    if |ops| == 0 then None
    else if ops[0].cmd == cmd then Some(ops[0])
    else FindOp(ops[1..], cmd)
  }

  /** Run the handler of a request to the family; None when no operation takes it. */
  function Dispatch(family: GenlFamily, cmd: nat, portid: nat, attr: Option<string>): (r: Option<RxResult>)
    ensures r.Some? ==> exists op :: op in family.ops && op.cmd == cmd && op.doit == Some(RxMsgHandler)
    ensures r.Some? ==> r.value == RxMsg(portid, attr)
  {
    match FindOp(family.ops, cmd)
    case None => None
    case Some(op) =>
      match op.doit
      case None => None
      case Some(RxMsgHandler) => Some(RxMsg(portid, attr))
  }

  /**
   * The family registers the shared name, version 1, MSG as its highest
   * attribute, one operation for C_MSG under the shared policy, and the
   * three groups in enum order under the shared names.
   */
  lemma FamilyMatchesProtocol()
    ensures TestFamily.name == FAMILY_NAME && TestFamily.version == FAMILY_VERSION
    ensures TestFamily.maxattr == ATTR_MAX && !TestFamily.netnsok
    ensures |TestFamily.ops| == 1 && TestFamily.ops[0].cmd == C_MSG && TestFamily.ops[0].policy == Policy
    ensures |TestFamily.mcgrps| == MCGRP_MAX
    ensures forall g :: 0 <= g < MCGRP_MAX ==>
      TestFamily.mcgrps[g] == McgrpNames[g] && GroupOfName(TestFamily.mcgrps[g]) == Some(g)
  {
    forall g | 0 <= g < MCGRP_MAX
      ensures GroupOfName(TestFamily.mcgrps[g]) == Some(g)
    {
      GroupOfNameRoundTrip(g);
    }
  }

  /** Only C_MSG reaches a handler; every other command is refused before any handler runs. */
  lemma DispatchRoutesMsgOnly(cmd: nat, portid: nat, attr: Option<string>)
    ensures Dispatch(TestFamily, cmd, portid, attr).Some? <==> cmd == C_MSG
    ensures cmd == C_MSG ==> Dispatch(TestFamily, cmd, portid, attr) == Some(RxMsg(portid, attr))
  {
    assert TestFamily.ops == TestOps;
    assert TestOps[1..] == [];
  }

  /* ---------------- Module load and unload ---------------- */

  datatype Timer = Inactive | Pending(expires: int)

  /** Whether the family is registered (and under which id), and the timer. */
  datatype ModuleState = ModuleState(family: Option<int>, timer: Timer)

  const Unloaded: ModuleState := ModuleState(None, Inactive)

  /** The timer only runs while the family it multicasts on is registered. */
  predicate Consistent(st: ModuleState)
  {
    st.timer.Pending? ==> st.family.Some?
  }

  /** A loaded module has both the family and the timer; an unloaded one neither. */
  predicate Settled(st: ModuleState)
  {
    st.family.Some? <==> st.timer.Pending?
  }

  /**
   * genl_test_init: register the family (`familyId` is the id it gets),
   * then arm the timer for HELLO_INTERVAL after now; a failed registration
   * returns -EINVAL with nothing registered and no timer.
   */
  function Init(regRc: int, familyId: int, now: int): (r: (int, ModuleState))
    ensures r.0 == 0 <==> regRc == 0
    ensures regRc != 0 ==> r == (-EINVAL, Unloaded)
    ensures regRc == 0 ==> r.1.family == Some(familyId) && r.1.timer == Pending(now + HELLO_INTERVAL)
    ensures Settled(r.1) && Consistent(r.1)
  {
    if regRc != 0 then (-EINVAL, Unloaded)
    else (0, ModuleState(Some(familyId), Pending(now + HELLO_INTERVAL)))
  }

  /** The states genl_test_exit passes through: after del_timer, then after unregistering. */
  function ExitSteps(st: ModuleState): (steps: seq<ModuleState>)
    ensures |steps| == 2 && steps[1] == Unloaded
    ensures steps[0] == st.(timer := Inactive)
    ensures Consistent(st) ==> forall i :: 0 <= i < |steps| ==> Consistent(steps[i])
  {
    var stopped := st.(timer := Inactive);
    [stopped, stopped.(family := None)]
  }

  /** Unregistering first would leave a moment where a pending timer outlives its family. */
  lemma ExitOrderMatters(familyId: int, expires: int)
    ensures var st := ModuleState(Some(familyId), Pending(expires));
      !Consistent(st.(family := None)) && Consistent(ExitSteps(st)[0])
  {
  }

  /** What can happen to the module. */
  datatype Event =
    | Load(regRc: int, familyId: int, now: int)
    | Fire(now: int, envOf: nat -> GreetEnv)
    | Unload

  /** One event and the multicasts it causes. */
  datatype Stepped = Stepped(next: ModuleState, sent: seq<Multicast>)

  /**
   * Loading a loaded module and unloading an unloaded one are refused by
   * the module loader and change nothing; a timer that is not armed never
   * fires.
   */
  function Step(st: ModuleState, e: Event): (r: Stepped)
    ensures r.sent != [] ==> e.Fire? && st.family.Some? && st.timer.Pending?
    ensures e.Unload? && st.family.Some? ==> r.next == Unloaded
    ensures e.Load? && st.family.None? ==> r.next == Init(e.regRc, e.familyId, e.now).1
    ensures e.Load? && st.family.Some? ==> r.next == st
    ensures e.Fire? && st.family.Some? && st.timer.Pending? ==>
      && r.next == ModuleState(st.family, Pending(e.now + HELLO_INTERVAL))
      && r.sent == Periodic(st.family.value, e.envOf, e.now).sent
    ensures e.Fire? && !(st.family.Some? && st.timer.Pending?) ==> r.next == st
    ensures |r.sent| <= MCGRP_MAX
  {
    match e
    case Load(regRc, familyId, now) =>
      if st.family.Some? then Stepped(st, []) else Stepped(Init(regRc, familyId, now).1, [])
    case Fire(now, envOf) =>
      if st.timer.Pending? && st.family.Some? then
        var t := Periodic(st.family.value, envOf, now);
        Stepped(ModuleState(st.family, Pending(t.rearmAt)), t.sent)
      else Stepped(st, [])
    case Unload =>
      if st.family.Some? then Stepped(ExitSteps(st)[1], []) else Stepped(st, [])
  }

  /** The state after a sequence of events, and every multicast on the way. */
  function Run(st: ModuleState, events: seq<Event>): (r: Stepped)
    ensures r.sent != [] ==> exists i :: 0 <= i < |events| && events[i].Fire?
    ensures |r.sent| <= MCGRP_MAX * |events|
    decreases |events|
  {
    if |events| == 0 then Stepped(st, [])
    else
      var s1 := Step(st, events[0]);
      var rest := Run(s1.next, events[1..]);
      Stepped(rest.next, s1.sent + rest.sent)
  }

  /** A run of one event is that event's step. */
  lemma RunOne(st: ModuleState, e: Event)
    ensures Run(st, [e]) == Step(st, e)
  {
    assert [e][1..] == [];
  }

  /**
   * Runs compose: running a + b is running a, then running b from where a
   * ended, with b's multicasts after a's. With RunOne this pins every run
   * down to its steps, in order.
   */
  lemma RunAppend(st: ModuleState, a: seq<Event>, b: seq<Event>)
    ensures var ra := Run(st, a);
      var rb := Run(ra.next, b);
      Run(st, a + b) == Stepped(rb.next, ra.sent + rb.sent)
  {
    RunIsFold(st, a + b);
    RunIsFold(st, a);
    RunIsFold(Run(st, a).next, b);
    FoldAppend(Step, st, a, b);
  }

  /** Any step function run over a sequence of events, collecting its multicasts in order. */
  function Fold(step: (ModuleState, Event) -> Stepped, st: ModuleState, events: seq<Event>): Stepped
    decreases |events|
  {
    if |events| == 0 then Stepped(st, [])
    else
      var s1 := step(st, events[0]);
      var rest := Fold(step, s1.next, events[1..]);
      Stepped(rest.next, s1.sent + rest.sent)
  }

  /** Folding a + b is folding a, then folding b from where a ended. */
  lemma {:induction false} FoldAppend(step: (ModuleState, Event) -> Stepped, st: ModuleState, a: seq<Event>, b: seq<Event>)
    ensures var ra := Fold(step, st, a);
      var rb := Fold(step, ra.next, b);
      Fold(step, st, a + b) == Stepped(rb.next, ra.sent + rb.sent)
    decreases |a|
  {
    if |a| == 0 {
      assert a + b == b;
    } else {
      var s1 := step(st, a[0]);
      assert (a + b)[0] == a[0] && (a + b)[1..] == a[1..] + b;
      FoldAppend(step, s1.next, a[1..], b);
      var tail := Fold(step, s1.next, a[1..]);
      var rb := Fold(step, tail.next, b);
      assert s1.sent + (tail.sent + rb.sent) == (s1.sent + tail.sent) + rb.sent;
    }
  }

  /** Run is the fold of Step. */
  lemma {:induction false} RunIsFold(st: ModuleState, events: seq<Event>)
    ensures Run(st, events) == Fold(Step, st, events)
    decreases |events|
  {
    if |events| > 0 {
      RunIsFold(Step(st, events[0]).next, events[1..]);
    }
  }

  /** From any settled state, every event sequence ends settled: loaded means the timer is armed. */
  lemma {:induction false} RunStaysSettled(st: ModuleState, events: seq<Event>)
    requires Settled(st)
    ensures Settled(Run(st, events).next)
    ensures Consistent(Run(st, events).next)
    decreases |events|
  {
    if |events| > 0 {
      var s1 := Step(st, events[0]);
      assert Settled(s1.next);
      RunStaysSettled(s1.next, events[1..]);
    }
  }

  /** Each multicast goes to an existing group and carries that group's greeting. */
  predicate AllGreetings(ms: seq<Multicast>)
  {
    forall i :: 0 <= i < |ms| ==>
      ms[i].group < MCGRP_MAX && ms[i].msg.text == Greeting(ms[i].group) && ms[i].msg.cmd == C_MSG
  }

  /** Proof step of StepSendsOnlyGreetings: a tick sends only greetings. */
  lemma TickSendsOnlyGreetings(familyId: int, envOf: nat -> GreetEnv, now: int, hdrFlags: nat)
    ensures AllGreetings(PeriodicWith(familyId, envOf, now, hdrFlags).sent)
  {
    PeriodicParts(familyId, envOf, now, hdrFlags);
    var a, b, c := Part(familyId, envOf, 0, hdrFlags), Part(familyId, envOf, 1, hdrFlags), Part(familyId, envOf, 2, hdrFlags);
    var sent := a + b + c;
    forall i | 0 <= i < |sent|
      ensures sent[i] == if i < |a| then a[i] else if i < |a| + |b| then b[i - |a|] else c[i - |a| - |b|]
    {
    }
  }

  lemma StepSendsOnlyGreetings(st: ModuleState, e: Event)
    ensures AllGreetings(Step(st, e).sent)
  {
    if e.Fire? && st.timer.Pending? && st.family.Some? {
      TickSendsOnlyGreetings(st.family.value, e.envOf, e.now, 0);
    }
  }

  lemma GreetingsConcat(a: seq<Multicast>, b: seq<Multicast>)
    requires AllGreetings(a) && AllGreetings(b)
    ensures AllGreetings(a + b)
  {
    assert forall i :: |a| <= i < |a + b| ==> (a + b)[i] == b[i - |a|];
  }

  /** Every multicast of a run goes to an existing group with that group's greeting. */
  lemma {:induction false} RunSendsOnlyGreetings(st: ModuleState, events: seq<Event>)
    ensures AllGreetings(Run(st, events).sent)
    decreases |events|
  {
    if |events| > 0 {
      var s1 := Step(st, events[0]);
      StepSendsOnlyGreetings(st, events[0]);
      RunSendsOnlyGreetings(s1.next, events[1..]);
      var rest := Run(s1.next, events[1..]);
      assert Run(st, events).sent == s1.sent + rest.sent;
      GreetingsConcat(s1.sent, rest.sent);
    }
  }

  /** Once unloaded, nothing more is multicast until the module is loaded again. */
  lemma {:induction false} UnloadedIsSilent(events: seq<Event>)
    requires forall i :: 0 <= i < |events| ==> !events[i].Load?
    ensures Run(Unloaded, events) == Stepped(Unloaded, [])
    decreases |events|
  {
    if |events| > 0 {
      UnloadedIsSilent(events[1..]);
    }
  }
}

=== FILE: protocol.dfy ===
/**
 * The constants and tables that the user-space client and the kernel module
 * share (genl_ex.h): the family and group names, command and attribute ids,
 * the attribute policy, and the broadcast interval.
 */
module Protocol {
  import opened Wrappers

  const FAMILY_NAME: string := "genl_test"
  const MCGRP0_NAME: string := "genl_mcgrp0"
  const MCGRP1_NAME: string := "genl_mcgrp1"
  const MCGRP2_NAME: string := "genl_mcgrp2"

  /** Size of the MSG attribute buffer, terminator included. */
  const ATTR_MSG_MAX: nat := 256
  /** Period of the kernel's broadcast, in milliseconds. */
  const HELLO_INTERVAL: nat := 5000

  /* ---------------- Commands ---------------- */

  /** The command enum; element 0 is reserved and never used. */
  datatype Command = CUnspec | CMsg

  /** The value a C enum gives each command: its position. */
  function CommandId(c: Command): nat
  {
    match c
    case CUnspec => 0
    case CMsg => 1
  }

  const C_MSG: nat := CommandId(CMsg)

  /** The command a numeric id names, if any. */
  function CommandOf(id: nat): (r: Option<Command>)
    ensures r.Some? ==> CommandId(r.value) == id
    ensures r.None? ==> forall c: Command :: CommandId(c) != id
  {
    if id == 0 then Some(CUnspec) else if id == 1 then Some(CMsg) else None
  }

  lemma CommandIds()
    ensures CommandId(CUnspec) == 0 && C_MSG == 1
    ensures forall c: Command :: CommandOf(CommandId(c)) == Some(c)
  {
  }

  /* ---------------- Multicast groups ---------------- */

  const MCGRP0: nat := 0
  const MCGRP1: nat := 1
  const MCGRP2: nat := 2
  /** Number of multicast groups. */
  const MCGRP_MAX: nat := 3

  /** genl_test_mcgrp_names: entry g is the name of group g. */
  const McgrpNames: seq<string> := [MCGRP0_NAME, MCGRP1_NAME, MCGRP2_NAME]

  /** The group index a name belongs to, if any. */
  function GroupOfName(name: string): (r: Option<nat>)
    ensures r.Some? ==> r.value < MCGRP_MAX && McgrpNames[r.value] == name
    ensures r.None? ==> name !in McgrpNames
  {
    if name == MCGRP0_NAME then Some(MCGRP0)
    else if name == MCGRP1_NAME then Some(MCGRP1)
    else if name == MCGRP2_NAME then Some(MCGRP2)
    else None
  }

  /** The name table has one entry per group, in enum order, and no two groups share a name. */
  lemma GroupTable()
    ensures |McgrpNames| == MCGRP_MAX
    ensures McgrpNames[MCGRP0] == MCGRP0_NAME && McgrpNames[MCGRP1] == MCGRP1_NAME
    ensures McgrpNames[MCGRP2] == MCGRP2_NAME
    ensures forall i, j :: 0 <= i < j < |McgrpNames| ==> McgrpNames[i] != McgrpNames[j]
  {
    assert MCGRP0_NAME[10] == '0' && MCGRP1_NAME[10] == '1' && MCGRP2_NAME[10] == '2';
  }

  /** Looking a group's own name up gives the group back. */
  lemma GroupOfNameRoundTrip(g: nat)
    requires g < MCGRP_MAX
    ensures GroupOfName(McgrpNames[g]) == Some(g)
  {
    GroupTable();
  }

  /* ---------------- Attributes and policy ---------------- */

  /** The attribute enum; element 0 is reserved and never used. */
  datatype Attr = AttrUnspec | AttrMsg

  function AttrId(a: Attr): nat
  {
    match a
    case AttrUnspec => 0
    case AttrMsg => 1
  }

  const ATTR_MSG: nat := AttrId(AttrMsg)
  /** The enum's closing sentinel: the number of attribute ids. */
  const ATTR_COUNT: nat := 2
  /** Highest attribute id. */
  const ATTR_MAX: nat := ATTR_COUNT - 1

  lemma AttrIds()
    ensures AttrId(AttrUnspec) == 0 && ATTR_MSG == 1 && ATTR_MAX == 1
    ensures forall a: Attr :: AttrId(a) <= ATTR_MAX
  {
  }

  datatype NlaType = NlaUnspec | NlaString
  datatype NlaPolicy = NlaPolicy(kind: NlaType, maxLen: nat)

  /**
   * genl_test_policy, indexed by attribute id 0..ATTR_MAX. Only MSG has an
   * initialiser, so the entry for id 0 is the zero one: no type, no length.
   */
  const Policy: seq<NlaPolicy> := [NlaPolicy(NlaUnspec, 0), NlaPolicy(NlaString, ATTR_MSG_MAX)]

  /** The policy entry for an attribute id; ids above ATTR_MAX have none. */
  function PolicyOf(id: nat): (r: Option<NlaPolicy>)
    ensures r.Some? <==> id <= ATTR_MAX
    ensures r.Some? && r.value.kind == NlaString <==> id == ATTR_MSG
    ensures id == ATTR_MSG ==> r == Some(NlaPolicy(NlaString, ATTR_MSG_MAX))
    ensures id == 0 ==> r == Some(NlaPolicy(NlaUnspec, 0))
  {
    if id < |Policy| then Some(Policy[id]) else None
  }

  /** A MSG string and its terminator fit the policy's maximum length. */
  predicate FitsMsgPolicy(text: string)
  {
    |text| + 1 <= Policy[ATTR_MSG].maxLen
  }

  /* ---------------- Messages ---------------- */

  /** Netlink header flag for a request. */
  const NLM_F_REQUEST: nat := 1

  /**
   * One generic-netlink message of this family as the code builds it: the
   * family id, the netlink header flags, the generic header's command and
   * version, and the text of its single MSG attribute.
   */
  datatype GenlMsg = GenlMsg(familyId: int, nlFlags: nat, cmd: nat, version: nat, text: string)

}

=== FILE: wrappers.dfy ===
/** Optional values, for results a C function signals with NULL or a missing entry. */
module Wrappers {

  datatype Option<+T> = None | Some(value: T)

}
